=== FILE: README.md ===
# CPU reservation planner of dpdk-tools `topology.py`, in Dafny

`topology.py` reads a host's NUMA and hyper-thread layout from sysfs. It then
recommends which logical CPUs to set aside for three uses:

- the host operating system (`os_cores`, printed as `ovs_dpdk_lcore_mask`);
- the DPDK poll-mode drivers of Open vSwitch (`pmd_cores`, printed as
  `ovs_dpdk_pmd_cpu_mask`);
- virtual machines (whatever remains).

It also prints the isolated-CPU list for the kernel command line (`isolcpus`,
`nohz_full`, `rcu_nocbs`).

This project models the computational core of the tool and proves what it
computes:

- **Cpulist notation** (`cpulist.dfy`). `"0-3,8,12-15"` is parsed as the loop
  at lines 55-60 and 68-73 does it. `listToRanges` prints a set of CPU ids in
  the same notation. Both rest on Python 2's `split`, `join`, `str`, `int()`
  and `format(n, '02x')`, which are modelled in `text.dfy`. `sorted` and
  `list(set(...))` are modelled in `ordering.dfy`.
- **Masks** (`bitmask.dfy`). `get_host_mask` ORs `1 << cpu` for every CPU into
  an unbounded integer and prints it as lower-case hex.
- **Reservation engine** (`reservation.dfy`). `get_core_siblings`, the per-node
  loop of `get_host_reserved_cores` and `get_pmd_reserved_cores`, and the
  chaining over nodes. On each node a pass does the following:
  - it takes the lowest CPU of the sorted list as a seed;
  - it reserves the seed's `thread_siblings_list`;
  - it removes those siblings from the list, and repeats `count` times.

  After the first round the list is `list(set(...))`, whose order Python does
  not fix. The model therefore lets every later seed be any remaining CPU. Only
  the first seed of a pass is proved to be the minimum.
- **Plan** (`partition.dfy`). `main` from line 171 to the kernel parameters:
  the OS pass, the PMD pass on what the OS pass left, both masks, and
  `listToRanges(set(host_cores) - set(os_cores))`.
- **Errors** (`faults.dfy`). Python exceptions become a `Result` with a
  `Fault`:
  - `ValueError` from `int()` becomes `InvalidLiteral`;
  - a negative shift becomes `NegativeShift`;
  - a `KeyError` on the sibling map becomes `MissingCpu`;
  - an `IndexError` on `cpulist[0]` becomes `NoCpuLeft`, naming the node.

Three parts of the source become inputs:

- the tunables `os_cores_per_node` and `pmd_cores_per_node` (lines 16 and 20);
- the node list as read, each node with its name and its `cpulist`, in the
  order `topology['nodes']` iterates;
- the sibling map `topology['cpus'][...]['thread_siblings_list']`.

Group-level guarantees such as "the OS and PMD pools never share a CPU" do not
hold for arbitrary sibling maps. They are proved under named conditions:

- `SiblingGroups`: every CPU is its own sibling and siblings share one sibling
  set, as Linux reports them;
- `NodeLocal`: sibling groups stay on their node and nodes do not overlap.

With symmetric and reflexive sibling lists alone the PMD pool can overlap the
OS pool. Take siblings 0:{0,1}, 1:{0,1,2}, 2:{1,2} on a node with CPUs 0-2 and
one core per pass. The OS pass takes 0 with {0,1}, the PMD pass takes 2 with
{1,2}, and CPU 1 lands in both pools (`Partition.ChainShape`,
`Partition.OverlapWithoutGroups`).

A node has room for a pass of `count` cores when every CPU on it has a
sibling entry and `count - 1` widest sibling lists hold fewer CPUs than the
node has. Each round then still finds a CPU, so the pass cannot fail. Room
for both passes means the same bound for `osPerNode + pmdPerNode` cores
(`Partition.Room`).

## Model

| member | source | states |
|---|---|---|
| Text.Split | topology.py:55-57 | `s.split(sep)` always yields at least one part, no part holds the separator, and a separator in the text yields at least two parts |
| Text.Join | topology.py:125 | `sep.join(parts)` of separator-free parts contains the separator exactly when there are at least two parts |
| Text.JoinSplit | topology.py:125-126 | joining the parts of a split with the same separator gives the text back |
| Text.SplitJoin | topology.py:125-126 | splitting the join of separator-free parts gives exactly those parts back, so `','.join(...).split(',')` in `get_host_mask` returns the printed ids |
| Text.NatToString | topology.py:125 | `str(e)` of a CPU id is a non-empty run of decimal digits without a leading zero that denotes `e` |
| Text.ParseInt | topology.py:58-60 | `int()` accepts a bare digit string as its decimal value, never yields a negative number without a minus sign, and raises ValueError on a blank string |
| Text.Format02x | topology.py:130 | `format(n, '02x')` is lower-case hex of at least two digits, zero-padded only to width two, whose value is `n` |
| Ordering.Sort | topology.py:90 | `sorted(list)` is non-decreasing and a permutation of its input |
| Ordering.SortHeadIsMin | topology.py:90-93 | the first entry of a sorted non-empty list is its minimum, so the first seed of every pass is the node's lowest CPU |
| Ordering.SortedElements | topology.py:40 | `sorted(set)` lists every element of the set exactly once, strictly ascending |
| Ordering.IncreasingUnique | topology.py:40 | two strictly ascending lists with the same elements are equal, so `sorted(S)` depends only on `S` |
| CpuList.Range | topology.py:58 | `range(lo, hi)` has `hi - lo` entries (none when `hi <= lo`), the k-th being `lo + k` |
| CpuList.ParseItems | topology.py:55-60 | the loop over the comma-separated items yields only non-negative ids |
| CpuList.ParseItem | topology.py:56-60 | one item contributes only non-negative ids, since `-` is a split point |
| CpuList.ParseCpuList | topology.py:55-60 | the parse loop yields only non-negative ids and rejects the empty string with ValueError on `''` |
| CpuList.ParseSingle | topology.py:59-60 | a bare run of decimal digits, leading zeros allowed, contributes exactly the number it denotes |
| CpuList.ParseSpan | topology.py:56-58 | `a-b` with digit runs `a` and `b` denoting `lo` and `hi` contributes `lo` through `hi` inclusive in ascending order, and nothing when `hi < lo` |
| CpuList.ParseExtraBound | topology.py:57-58 | `lo-mid-hi` is read as `lo-mid`: parts after the second are ignored |
| CpuList.ParseCons | topology.py:55-60 | the items contribute in order: parsing `item,rest` is the item's contribution followed by the rest's, and the first failing item's error wins |
| CpuList.ParseLone | topology.py:55-60 | a list without a comma is parsed as its single item |
| CpuList.Group | topology.py:39-44 | the run-building loop splits a list into maximal runs of consecutive integers whose concatenation is the list |
| CpuList.RunsUnique | topology.py:39-44 | the split into maximal runs is unique, so any such split is what the loop builds |
| CpuList.RenderRun | topology.py:45 | a run prints as a non-empty item without a comma, holding a dash exactly when the run has more than one CPU |
| CpuList.RenderRuns | topology.py:45 | every run is printed on its own, one item per run, in order |
| CpuList.ListToRanges | topology.py:38-45 | the printed list is empty exactly when the set is |
| CpuList.ListToRangesShape | topology.py:38-45 | the printed list is the comma join of the maximal runs of `sorted(S)`, each as `lo` or `lo-hi` |
| CpuList.RoundTrip | topology.py:38-45 | parsing what `listToRanges` prints for a non-empty set gives back the set's elements in ascending order |
| CpuList.EmptyDoesNotRoundTrip | topology.py:45 | the empty set prints as `""`, which the parse loop rejects |
| Bitmask.Pow2 | topology.py:129 | `1 << e` is positive and has bit e set and no other |
| Bitmask.Or | topology.py:129 | the bitwise OR of `a` and `b` is at least each operand and at most their sum |
| Bitmask.BitOfOr | topology.py:129 | bit k of the bitwise OR of `a` and `b` is set exactly when it is set in `a` or in `b` |
| Bitmask.Decimals | topology.py:125 | `str(e) for e in cpulist` gives one printed id per CPU, in order |
| Bitmask.MaskLoop | topology.py:127-129 | the OR loop never clears a bit already in the mask, and it can fail only on a non-empty list of items |
| Bitmask.MaskLoopBits | topology.py:127-129 | over printed ids the OR loop never fails, and bit k of its result is set exactly when it was set before or k is one of the ids |
| Bitmask.PrintedIdsSplit | topology.py:125-126 | splitting the comma-joined printed ids of a non-empty list returns the printed ids |
| Bitmask.HostMask | topology.py:123-130 | `get_host_mask` succeeds exactly on a non-empty list; bit n of the printed hex is set exactly when CPU n is in the list; the text is lower-case hex of at least two digits; the empty list fails with ValueError on `''` |
| Bitmask.MaskIgnoresOrder | topology.py:123-130 | the mask depends only on which CPUs occur, not on their order or repeats |
| Reservation.CoreSiblings | topology.py:76-81 | `get_core_siblings` succeeds exactly when every core has a sibling entry; otherwise it raises KeyError for the first core without one |
| Reservation.CoreSiblingsMembers | topology.py:76-81 | the chained sibling lists hold exactly the CPUs found in some given core's list |
| Reservation.CoreSiblingsAppend | topology.py:94-98 | looking up seeds one at a time and chaining the results equals looking up all of them at once, as line 98 does |
| Reservation.CoreSiblingsOne | topology.py:94 | the lookup of one core is that core's sibling list |
| Reservation.ProgressStep | topology.py:92-96 | one round keeps the loop invariant: the new seed lies outside every earlier seed's siblings; the list keeps exactly the node's unreserved CPUs; it shrinks by at most one sibling list and, when a CPU is its own sibling, by at least one |
| Reservation.TakeSeed | topology.py:92-96 | one round succeeds exactly when the list is non-empty and its head has a sibling entry; it then takes the head as the next seed, appends that seed's sibling list to the reserved CPUs, and leaves the set of listed CPUs outside that sibling list, in any order; otherwise it raises IndexError when the list is empty and KeyError naming the head when it has no entry; an empty node always fails; room guarantees success |
| Reservation.ReserveOnNode | topology.py:88-100 | one node of a pass picks `count` seeds; the first is the lowest CPU and each later one lies outside the earlier seeds' sibling lists; the node's pool is their chained sibling lists; the stored list keeps exactly the unreserved CPUs, sorted when no round ran and duplicate-free otherwise; an error is the one a reachable round raises: IndexError when that round finds the list empty, KeyError naming the head it finds without sibling entry; an empty node fails; room guarantees success; more rounds than CPUs fails when CPUs are their own siblings |
| Reservation.Gathered | topology.py:99-101 | every CPU of any node's pool is in the chained list |
| Reservation.Store | topology.py:97-98 | storing a pass keeps the node's name, sets its `cpulist` to the remaining list and its pool to the reserved CPUs, and leaves the other pool alone |
| Reservation.GatheredMembers | topology.py:99-101 | the chained pools hold exactly the CPUs of some node's pool |
| Reservation.ReservePool | topology.py:83-121 | both passes update every node in order, keeping its name and the other pool, with the per-node guarantees above; they return the nodes' pools chained in node order; an error is the one some reachable round on some node raises, as for one node, and every earlier node admits a complete pass; a node with no CPUs fails a pass with `count > 0`; room on every node guarantees success |
| Partition.SeparateGroups | topology.py:110-118 | with Linux-shaped siblings, seeds outside an earlier reservation reserve none of its CPUs |
| Partition.GroupsAreWhole | topology.py:94-98 | with Linux-shaped siblings every reservation consists of whole sibling groups |
| Partition.BothPasses | topology.py:171-172 | after both passes a node's final list is its CPUs minus both pools; the PMD pass starts from the lowest CPU the OS pass left and never picks an OS CPU; with Linux-shaped siblings the pools are whole groups and disjoint; with a sibling-closed node the pools and the final list cover the node |
| Partition.HostCores | topology.py:145-149 | `host_cores` holds exactly the CPUs of some node |
| Partition.PoolsDisjoint | topology.py:171-172 | with Linux-shaped, node-local siblings the chained OS and PMD pools share no CPU across all nodes |
| Partition.PoolsCover | topology.py:171-172 | with sibling-closed nodes every host CPU is in the OS pool, the PMD pool or a node's remaining list, and nothing else is |
| Partition.NothingReserved | topology.py:92-101 | a pass with a non-positive count, or over no nodes, reserves nothing |
| Partition.NothingIsolated | topology.py:211 | the isolated-CPU list is empty exactly when every host CPU is reserved for the OS |
| Partition.ChainShape | topology.py:90-118 | reflexive, symmetric sibling lists 0:{0,1}, 1:{0,1,2}, 2:{1,2} are not Linux-shaped groups, and on a node with CPUs 0-2 they admit an OS pass reserving {0,1} followed by a PMD pass reserving {1,2} |
| Partition.ChainOsPass | topology.py:88-100 | on CPUs 0-2 with those sibling lists, seed 0 reserving {0,1} and leaving [2] meets every guarantee of a one-core pass |
| Partition.ChainPmdPass | topology.py:88-100 | on the list [2] with those sibling lists, seed 2 reserving {1,2} and leaving nothing meets every guarantee of a one-core pass |
| Partition.OverlapWithoutGroups | topology.py:90-118 | with those sibling lists and one core per pass, every OS pass reserves {0,1} and leaves [2], and every PMD pass on what is left reserves {1,2}, so CPU 1 is in both pools |
| Partition.BothPools | topology.py:171-172 | the OS pass and then the PMD pass give every node its two pools and final list as `BothPasses` states; a pass with no rounds reserves nothing, and a pass with rounds reserves something unless some CPU has an empty sibling list; an error is the first one the OS pass raises, or one the PMD pass raises on the lists some complete OS pass left, each from a round that finds its list empty or its head without sibling entry; a node without CPUs fails; room for both passes on every node guarantees success |
| Partition.PmdPass | topology.py:172 | the PMD pass over the lists the OS pass left: on success the nodes as read end with both pools as `BothPools` states; an error is one the PMD pass raises on those lists, from a reachable stuck round with every earlier node passable; room for both passes guarantees success |
| Partition.PmdOutcome | topology.py:172 | whatever the PMD pass returns after a complete OS pass, its success gives both pools of the nodes as read, its error is an error of the two passes as `BothPools` states, and room for both passes rules its failure out |
| Partition.PlanFor | topology.py:171-211 | the whole plan: both passes as above; each mask has bit n set exactly when CPU n is in its pool; the isolated list is `listToRanges` of the host CPUs outside the OS pool, parses back to the host CPUs not reserved for the OS, and is empty exactly when there are none; Linux-shaped, node-local siblings keep OS and PMD pools apart; an error is one the two passes raise, as for `BothPools`, or is the ValueError of `get_host_mask([])`, which happens only for a non-positive tunable, no nodes or an empty sibling list; a non-positive tunable or no nodes always fails; room for both passes on a non-empty set of nodes without empty sibling lists guarantees success |
| Partition.PlanFacts | topology.py:171-211 | after both passes, the isolated list parses back to the host CPUs outside the OS pool and is empty exactly when all are OS CPUs; the pools are disjoint under Linux-shaped node-local siblings and cover the host with the final lists under sibling-closed nodes |
| Partition.IsolatedFacts | topology.py:211 | for any host and OS lists, the isolated list parses back to the host CPUs outside the OS list and is empty exactly when there are none |
| Partition.PlanApart | topology.py:171-172 | with Linux-shaped, node-local siblings the OS and PMD pools of a plan share no CPU |
| Partition.PlanCovers | topology.py:171-172 | with sibling-closed nodes the host CPUs are exactly the two pools and the final lists |
| Partition.PoolsFilled | topology.py:92-98 | when no CPU has an empty sibling list, a pass with at least one round over at least one node reserves at least one CPU |
| Partition.RoomForOs | topology.py:171 | room for both passes on a node leaves room for the OS pass on its list as read |
| Partition.RoomLeft | topology.py:88-100 | after an OS pass on a node with room for both passes, the list it leaves is keyed and has room for the PMD pass |
| Partition.RoomForPmd | topology.py:171-172 | room for both passes on every node leaves room for the PMD pass on every list the OS pass stored |
| Partition.PairsHaveRoom | topology.py:171-172 | two nodes of four CPUs with hyperthread pairs {0,2}, {1,3}, {4,6}, {5,7} have room for one OS and one PMD core each and no empty sibling list, so `Partition.PlanFor` succeeds on them |

## Behaviour at the edges

What the code does on inputs outside the usual shapes:

- A range item `a-b` with `b < a` contributes no CPUs and raises nothing,
  because `range(a, b + 1)` is empty (`CpuList.ParseSpan`).
- An item `a-b-c` contributes `range(a, b + 1)`: lines 57-58 look only at the
  first two parts of the split (`CpuList.ParseExtraBound`).
- `get_host_mask([])` raises ValueError, because `''.split(',')` is `['']` and
  `int('')` fails; it never returns `00` (`Bitmask.HostMask`). A tunable of 0
  therefore makes the whole plan fail (`Partition.PlanFor`).
- An exhausted node raises IndexError from `cpulist[0]`. The model's
  `NoCpuLeft` carries the node's name, which the Python exception does not.
- `listToRanges` of the empty set is `""`, which the parse loop rejects, so the
  round trip holds only for non-empty sets (`CpuList.EmptyDoesNotRoundTrip`).

## Left out

- Reading sysfs and `/proc`: `file(...).read()`, `rstrip('\n')`, `os.listdir`,
  `glob`, and the regular expressions selecting `nodeN` and `cpuN`. The parsed
  values come in as inputs.
- The `physical_package_id`, `numa_node` and `core_siblings_list` fields. The
  reservation never reads them.
- The two bare `except:` blocks of `main`. They replace the whole topology with
  an error dictionary. The later code then fails on missing keys, which the
  model does not replay.
- The PrettyTable report, terminal colours, every `print`, and
  `host_memory_per_node`. They only format output.
- The order in which `main` prints the sorted pools. The order of `host_cores`
  follows the node sequence, while the source follows `os.listdir`. Only
  membership is used, and membership is the same.
- The sibling map is keyed by the CPU number `N`, not by the string
  `'cpu' + str(N)`. This is the same lookup.
- Text.ParseInt: models `int()` as optional surrounding ASCII whitespace, an
  optional sign, then ASCII digits. CPython 2.7 reads the digits with
  `PyOS_strtol`, which also skips whitespace between the sign and the digits,
  so `int('+ 5') == 5`; the model rejects such strings. They do not occur in
  sysfs cpulists.
- CpuList.ListToRanges: takes a set of natural numbers. The source accepts any
  iterable of integers, but the only call passes a set of CPU ids.
- Reservation.ReserveOnNode: proves the first seed of a pass is the minimum.
  Later seeds come from `list(set(...))`, whose order CPython does not
  guarantee, so for them it proves only that each is a remaining CPU.

=== FILE: bitmask.dfy ===
/** `get_host_mask` (topology.py:123-130): a list of CPU ids becomes an affinity
    bitmask, an unbounded integer with bit `n` set for CPU `n`, printed as
    lower-case hex. Python's `|` and `<<` on unbounded integers are modelled by
    `Or` and `Pow2` on `nat`. */
module Bitmask {
  import opened Faults
  import opened Text
  import Ordering

  /** `1 << k`: a positive number with exactly bit `k` set. */
  function Pow2(k: nat): (p: nat)
    ensures p >= 1
    ensures forall j: nat :: Bit(p, j) <==> j == k
  {
    if k == 0 then
      BitsOfOne();
      1
    else
      BitsOfDouble(Pow2(k - 1));
      2 * Pow2(k - 1)
  }

  /** Bit `k` of `n` is set. */
  predicate Bit(n: nat, k: nat)
  {
    if k == 0 then n % 2 == 1 else Bit(n / 2, k - 1)
  }

  /** `a | b` on non-negative integers, one binary digit at a time. It lies
      between the larger operand and the sum; its bits are `BitOfOr`'s. */
  function Or(a: nat, b: nat): (r: nat)
    ensures a <= r && b <= r && r <= a + b
    decreases a + b
  {
    if a == 0 then b
    else if b == 0 then a
    else 2 * Or(a / 2, b / 2) + (if a % 2 == 1 || b % 2 == 1 then 1 else 0)
  }

  lemma {:induction false} BitOfZero(k: nat)
    ensures !Bit(0, k)
  {
    if k > 0 {
      BitOfZero(k - 1);
    }
  }

  /** Bit `k` of `a | b` is set exactly when it is set in `a` or in `b`. */
  lemma {:induction false} BitOfOr(a: nat, b: nat, k: nat)
    ensures Bit(Or(a, b), k) <==> Bit(a, k) || Bit(b, k)
    decreases a + b
  {
    if a == 0 {
      BitOfZero(k);
    } else if b == 0 {
      BitOfZero(k);
    } else {
      var low := if a % 2 == 1 || b % 2 == 1 then 1 else 0;
      var r := 2 * Or(a / 2, b / 2) + low;
      assert r % 2 == low && r / 2 == Or(a / 2, b / 2);
      if k > 0 {
        BitOfOr(a / 2, b / 2, k - 1);
      }
    }
  }

  /** Only bit 0 of 1 is set. */
  lemma BitsOfOne()
    ensures forall j: nat :: Bit(1, j) <==> j == 0
  {
    forall j: nat | j > 0
      ensures !Bit(1, j)
    {
      BitOfZero(j - 1);
    }
  }

  /** Doubling shifts every bit up by one. */
  lemma BitsOfDouble(q: nat)
    ensures forall j: nat :: Bit(2 * q, j) <==> j > 0 && Bit(q, j - 1)
  {
    forall j: nat
      ensures Bit(2 * q, j) <==> j > 0 && Bit(q, j - 1)
    {
      assert (2 * q) % 2 == 0 && (2 * q) / 2 == q;
    }
  }

  /** Numbers with the same bits are equal. */
  lemma {:induction false} SameBits(a: nat, b: nat)
    requires forall k: nat :: Bit(a, k) <==> Bit(b, k)
    ensures a == b
    decreases a + b
  {
    if a != 0 || b != 0 {
      assert Bit(a, 0) <==> Bit(b, 0);
      assert a % 2 == b % 2;
      forall k: nat
        ensures Bit(a / 2, k) <==> Bit(b / 2, k)
      {
        assert Bit(a, k + 1) <==> Bit(b, k + 1);
      }
      if a / 2 + b / 2 < a + b {
        SameBits(a / 2, b / 2);
      }
    }
  }

  /** The loop at topology.py:128-129 over the text items: each is read with
      `int()` and its bit OR-ed into `acc`; the first bad item stops the loop. */
  function MaskLoop(items: seq<string>, acc: nat): (r: Result<nat>)
    ensures r.Ok? ==> forall k: nat :: Bit(acc, k) ==> Bit(r.value, k)
    ensures r.Err? ==> |items| > 0
  {
    if |items| == 0 then Ok(acc)
    else
      match ParseInt(items[0])
      case Err(e) => Err(e)
      case Ok(v) =>
        if v < 0 then Err(NegativeShift(v))
        else
          OrKeeps(acc, Pow2(v));
          MaskLoop(items[1..], Or(acc, Pow2(v)))
  }

  /** OR-ing never clears a bit. */
  lemma OrKeeps(a: nat, b: nat)
    ensures forall k: nat :: Bit(a, k) ==> Bit(Or(a, b), k)
  {
    forall k: nat
      ensures Bit(a, k) ==> Bit(Or(a, b), k)
    {
      BitOfOr(a, b, k);
    }
  }

  /** `[str(e) for e in cpulist]` */
  function Decimals(cpulist: seq<nat>): (items: seq<string>)
    ensures |items| == |cpulist|
    ensures forall i :: 0 <= i < |cpulist| ==> items[i] == NatToString(cpulist[i])
  {
    if |cpulist| == 0 then [] else [NatToString(cpulist[0])] + Decimals(cpulist[1..])
  }

  /** Over printed ids the loop never fails, and bit `k` of its result is set
      exactly when it is set in `acc` or `k` is one of the ids. */
  lemma {:induction false} MaskLoopBits(cpulist: seq<nat>, acc: nat)
    ensures MaskLoop(Decimals(cpulist), acc).Ok?
    ensures forall k: nat :: Bit(MaskLoop(Decimals(cpulist), acc).value, k) <==> Bit(acc, k) || k in cpulist
    decreases |cpulist|
  {
    if |cpulist| > 0 {
      var c := cpulist[0];
      var next := Or(acc, Pow2(c));
      assert ParseInt(NatToString(c)) == Ok(c as int);
      assert Decimals(cpulist)[1..] == Decimals(cpulist[1..]);
      MaskLoopBits(cpulist[1..], next);
      forall k: nat
        ensures Bit(next, k) <==> Bit(acc, k) || k == c
      {
        BitOfOr(acc, Pow2(c), k);
      }
      assert forall k: nat :: k in cpulist <==> k == c || k in cpulist[1..];
    } else {
      assert forall k: nat :: k !in cpulist;
    }
  }

  /** `get_host_mask(cpulist)`: bit `n` of the printed mask is set exactly when
      CPU `n` is in the list; the text is `format(mask, '02x')`, lower-case hex
      of at least two digits. An empty list fails, because `''.split(",")` is
      `['']` and `int('')` raises ValueError. */
  function HostMask(cpulist: seq<nat>): (r: Result<string>)
    ensures r.Ok? <==> |cpulist| > 0
    ensures r.Err? ==> r.error == InvalidLiteral("")
    ensures r.Ok? ==> IsMaskText(r.value)
    ensures r.Ok? ==> forall k: nat :: Bit(HexValue(r.value), k) <==> k in cpulist
  {
    var items := Split(Join(Decimals(cpulist), ','), ',');
    if |cpulist| == 0 then
      assert items == [""];
      match MaskLoop(items, 0)
      case Err(e) => Err(e)
      case Ok(m) => Ok(Format02x(m))
    else
      PrintedIdsSplit(cpulist);
      MaskLoopBits(cpulist, 0);
      forall k: nat
        ensures !Bit(0, k)
      {
        BitOfZero(k);
      }
      match MaskLoop(items, 0)
      case Err(e) => Err(e)
      case Ok(m) => Ok(Format02x(m))
  }

  /** Splitting the comma-joined ids gives back the printed ids. */
  lemma PrintedIdsSplit(cpulist: seq<nat>)
    requires |cpulist| > 0
    ensures Split(Join(Decimals(cpulist), ','), ',') == Decimals(cpulist)
  {
    var items := Decimals(cpulist);
    forall i | 0 <= i < |items|
      ensures ',' !in items[i]
    {
      assert forall j :: 0 <= j < |items[i]| ==> IsDigit(items[i][j]);
    }
    SplitJoin(items, ',');
  }

  /** The mask depends only on which ids occur: not on their order, nor on
      repeats. */
  lemma MaskIgnoresOrder(a: seq<nat>, b: seq<nat>)
    requires forall x :: x in a <==> x in b
    ensures HostMask(a) == HostMask(b)
  {
    assert Ordering.Elements(a) == Ordering.Elements(b);
    Ordering.NoElements(a);
    Ordering.NoElements(b);
    if |a| > 0 {
      PrintedIdsSplit(a);
      PrintedIdsSplit(b);
      MaskLoopBits(a, 0);
      MaskLoopBits(b, 0);
      var ma := MaskLoop(Decimals(a), 0).value;
      var mb := MaskLoop(Decimals(b), 0).value;
      forall k: nat
        ensures Bit(ma, k) <==> Bit(mb, k)
      {
        BitOfZero(k);
      }
      SameBits(ma, mb);
    }
  }
}

=== FILE: cpulist.dfy ===
/** Linux cpulist notation (`"0-3,8,12-15"`): the parse loop the tool runs on
    every sysfs cpulist and sibling file (topology.py:55-60 and 68-73, the same
    loop twice) and `listToRanges`, which prints a set of CPU ids back in that
    notation (topology.py:38-45). */
module CpuList {
  import opened Faults
  import opened Text
  import opened Ordering

  function Last<T>(xs: seq<T>): T
    requires |xs| > 0
  {
    xs[|xs| - 1]
  }

  // ---------------------------------------------------------------------------
  // parsing
  // ---------------------------------------------------------------------------

  /** Python's `range(lo, hi)`: the integers from `lo` up to but excluding `hi`. */
  function Range(lo: int, hi: int): (r: seq<int>)
    ensures |r| == if lo < hi then hi - lo else 0
    ensures forall k :: 0 <= k < |r| ==> r[k] == lo + k
    decreases hi - lo
  {
    if lo >= hi then [] else [lo] + Range(lo + 1, hi)
  }

  /** The contribution of one comma-separated item: an item holding `-` is split
      there and handed to `ParseBounds`; any other item is `[int(item)]`.
      Since `-` is a split point, no parsed number can carry a minus sign. */
  function ParseItem(item: string): (r: Result<seq<int>>)
    ensures r.Ok? ==> forall k :: 0 <= k < |r.value| ==> r.value[k] >= 0
  {
    if '-' in item then ParseBounds(Split(item, '-'))
    else
      match ParseInt(item)
      case Err(e) => Err(e)
      case Ok(v) => Ok([v])
  }

  /** `range(int(sub[0]), int(sub[1]) + 1)`: parts after the second are ignored,
      and `hi < lo` gives nothing. */
  function ParseBounds(sub: seq<string>): (r: Result<seq<int>>)
    requires |sub| >= 2 && '-' !in sub[0]
    ensures r.Ok? ==> forall k :: 0 <= k < |r.value| ==> r.value[k] >= 0
  {
    Bounds(ParseInt(sub[0]), ParseInt(sub[1]))
  }

  /** `range(lo, hi + 1)` once both bounds are read; the first failure wins. */
  function Bounds(lo: Result<int>, hi: Result<int>): (r: Result<seq<int>>)
    requires lo.Ok? ==> lo.value >= 0
    ensures r.Ok? ==> forall k :: 0 <= k < |r.value| ==> r.value[k] >= 0
  {
    match lo
    case Err(e) => Err(e)
    case Ok(l) =>
      match hi
      case Err(e) => Err(e)
      case Ok(h) => Ok(Range(l, h + 1))
  }

  /** The contributions of `items`, concatenated in order; the first item that
      fails stops the loop with its error. */
  function ParseItems(items: seq<string>): (r: Result<seq<int>>)
    ensures r.Ok? ==> forall k :: 0 <= k < |r.value| ==> r.value[k] >= 0
  {
    if |items| == 0 then Ok([])
    else
      match ParseItem(items[0])
      case Err(e) => Err(e)
      case Ok(head) =>
        match ParseItems(items[1..])
        case Err(e) => Err(e)
        case Ok(tail) => Ok(head + tail)
  }

  /** The cpulist parse loop: split on `,` and concatenate the items'
      contributions. Only non-negative ids come out, and the empty string is
      rejected because `int('')` fails. */
  function ParseCpuList(value: string): (r: Result<seq<int>>)
    ensures r.Ok? ==> forall k :: 0 <= k < |r.value| ==> r.value[k] >= 0
    ensures value == "" ==> r == Err(InvalidLiteral(""))
  {
    ParseItems(Split(value, ','))
  }

  /** A bare run of digits contributes exactly the number it denotes. */
  lemma ParseSingle(s: string)
    requires |s| > 0 && AllDigits(s)
    ensures ParseItem(s) == Ok([DigitsValue(s)])
  {
    assert '-' !in s by {
      assert forall i :: 0 <= i < |s| ==> IsDigit(s[i]);
    }
  }

  /** `a-b` with digit runs `a` and `b` denoting `lo` and `hi` contributes every
      integer from `lo` to `hi` inclusive, ascending, and nothing when `hi < lo`. */
  lemma ParseSpan(a: string, b: string, lo: nat, hi: nat)
    requires |a| > 0 && AllDigits(a) && |b| > 0 && AllDigits(b)
    requires DigitsValue(a) == lo && DigitsValue(b) == hi
    ensures ParseItem(a + "-" + b) == Ok(Range(lo, hi + 1))
  {
    SpanItem(a, b, lo, hi);
  }

  lemma SpanItem(a: string, b: string, lo: nat, hi: nat)
    requires |a| > 0 && AllDigits(a) && |b| > 0 && AllDigits(b)
    requires DigitsValue(a) == lo && DigitsValue(b) == hi
    ensures ParseItem(a + "-" + b) == Ok(Range(lo, hi + 1))
  {
    SplitNumbers(a, b);
    assert '-' !in a by {
      assert forall i :: 0 <= i < |a| ==> IsDigit(a[i]);
    }
    BoundsOfNumbers(a, b, lo, hi);
    ItemOfParts(a + "-" + b, [a, b]);
  }

  lemma SplitNumbers(a: string, b: string)
    requires AllDigits(a) && AllDigits(b)
    ensures '-' in a + "-" + b
    ensures Split(a + "-" + b, '-') == [a, b]
  {
    assert '-' !in a && '-' !in b by {
      assert forall i :: 0 <= i < |a| ==> IsDigit(a[i]);
      assert forall i :: 0 <= i < |b| ==> IsDigit(b[i]);
    }
    assert Join([a, b], '-') == a + "-" + b;
    SplitJoin([a, b], '-');
    assert (a + "-" + b)[|a|] == '-';
  }

  lemma BoundsOfNumbers(a: string, b: string, lo: nat, hi: nat)
    requires ParseInt(a) == Ok(lo) && ParseInt(b) == Ok(hi) && '-' !in a
    ensures ParseBounds([a, b]) == Ok(Range(lo, hi + 1))
  {
    assert [a, b][0] == a && [a, b][1] == b;
    BoundsOfFirstTwo([a, b], lo, hi);
  }

  /** An item with two dashes, `lo-mid-hi`, is read as `lo-mid`: the code looks
      only at the first two parts of the split. */
  lemma ParseExtraBound(lo: nat, mid: nat, hi: nat)
    ensures ParseItem(NatToString(lo) + "-" + NatToString(mid) + "-" + NatToString(hi)) == Ok(Range(lo, mid + 1))
  {
    var a := NatToString(lo);
    var b := NatToString(mid);
    var c := NatToString(hi);
    SplitThree(a, b, c);
    ParseNatToString(lo);
    ParseNatToString(mid);
    assert [a, b, c][0] == a && [a, b, c][1] == b;
    BoundsOfFirstTwo([a, b, c], lo, mid);
    ItemOfParts(a + "-" + b + "-" + c, [a, b, c]);
  }

  /** An item holding `-` contributes what its `-`-separated parts bound. */
  lemma ItemOfParts(item: string, parts: seq<string>)
    requires '-' in item && Split(item, '-') == parts
    requires |parts| >= 2 && '-' !in parts[0]
    ensures ParseItem(item) == ParseBounds(parts)
  {
  }

  lemma BoundsOfFirstTwo(sub: seq<string>, lo: nat, hi: nat)
    requires |sub| >= 2 && '-' !in sub[0]
    requires ParseInt(sub[0]) == Ok(lo) && ParseInt(sub[1]) == Ok(hi)
    ensures ParseBounds(sub) == Ok(Range(lo, hi + 1))
  {
    assert ParseBounds(sub) == Bounds(ParseInt(sub[0]), ParseInt(sub[1]));
    BoundsOfNats(lo, hi);
  }

  lemma BoundsOfNats(lo: nat, hi: nat)
    ensures Bounds(Ok(lo), Ok(hi)) == Ok(Range(lo, hi + 1))
  {
  }

  lemma SplitThree(a: string, b: string, c: string)
    requires AllDigits(a) && AllDigits(b) && AllDigits(c)
    ensures '-' in a + "-" + b + "-" + c
    ensures Split(a + "-" + b + "-" + c, '-') == [a, b, c]
  {
    assert '-' !in a && '-' !in b && '-' !in c by {
      assert forall i :: 0 <= i < |a| ==> IsDigit(a[i]);
      assert forall i :: 0 <= i < |b| ==> IsDigit(b[i]);
      assert forall i :: 0 <= i < |c| ==> IsDigit(c[i]);
    }
    JoinThree(a, b, c);
    SplitJoin([a, b, c], '-');
    assert (a + "-" + b + "-" + c)[|a|] == '-';
  }

  lemma JoinThree(a: string, b: string, c: string)
    ensures Join([a, b, c], '-') == a + "-" + b + "-" + c
  {
    assert [a, b, c][1..] == [b, c] && [b, c][1..] == [c];
    assert Join([b, c], '-') == b + "-" + c;
    assert Join([a, b, c], '-') == a + "-" + (b + "-" + c);
  }

  /** The items of a list contribute in order: parsing `item,rest` is parsing
      `item`, then `rest`, and concatenating. */
  lemma ParseCons(item: string, rest: string)
    requires ',' !in item
    ensures ParseCpuList(item + "," + rest) ==
      match ParseItem(item)
      case Err(e) => Err(e)
      case Ok(head) =>
        match ParseCpuList(rest)
        case Err(e) => Err(e)
        case Ok(tail) => Ok(head + tail)
  {
    assert item + "," + rest == item + ([','] + rest);
    SplitOfPrefix(item, [','] + rest, ',');
    assert ([','] + rest)[1..] == rest;
    assert Split([','] + rest, ',') == [""] + Split(rest, ',');
    assert item + "" == item;
    assert Split(item + "," + rest, ',') == [item] + Split(rest, ',');
    assert ([item] + Split(rest, ','))[1..] == Split(rest, ',');
  }

  /** A single item without a comma parses as that item alone. */
  lemma ParseLone(item: string)
    requires ',' !in item
    ensures ParseCpuList(item) == ParseItem(item)
  {
    SplitJoin([item], ',');
    assert Split(item, ',') == [item];
    assert [item][1..] == [];
    assert ParseItems([]) == Ok([]);
    match ParseItem(item)
    case Err(_) =>
    case Ok(head) => assert head + [] == head;
  }

  // ---------------------------------------------------------------------------
  // grouping into runs and listToRanges
  // ---------------------------------------------------------------------------

  /** A run: a non-empty block of consecutive integers. */
  predicate Consecutive(run: seq<nat>)
  {
    |run| > 0 && forall k :: 0 <= k < |run| ==> run[k] == run[0] + k
  }

  function Flatten(runs: seq<seq<nat>>): seq<nat>
  {
    if |runs| == 0 then [] else runs[0] + Flatten(runs[1..])
  }

  /** `runs` cuts `xs` into maximal runs: every run is consecutive, the runs
      concatenate to `xs`, and no run continues into the next one. */
  predicate MaximalRuns(runs: seq<seq<nat>>, xs: seq<nat>)
  {
    && (forall i :: 0 <= i < |runs| ==> Consecutive(runs[i]))
    && Flatten(runs) == xs
    && (forall i :: 0 <= i < |runs| - 1 ==> Last(runs[i]) + 1 != runs[i + 1][0])
  }

  lemma {:induction false} FlattenSnoc(runs: seq<seq<nat>>, run: seq<nat>)
    ensures Flatten(runs + [run]) == Flatten(runs) + run
    decreases |runs|
  {
    if |runs| == 0 {
      assert runs + [run] == [run];
      assert Flatten([run]) == run + Flatten([]);
    } else {
      assert (runs + [run])[1..] == runs[1..] + [run];
      FlattenSnoc(runs[1..], run);
    }
  }

  /** The grouping loop of `listToRanges`: each value either extends the last
      run (when it is one more than that run's last value) or starts a new one. */
  function Group(xs: seq<nat>): (runs: seq<seq<nat>>)
    ensures MaximalRuns(runs, xs)
    decreases |xs|
  {
    if |xs| == 0 then []
    else
      var ret := Group(xs[..|xs| - 1]);
      var val := xs[|xs| - 1];
      assert xs == xs[..|xs| - 1] + [val];
      if |ret| == 0 || Last(Last(ret)) + 1 != val then
        StartRun(ret, xs[..|xs| - 1], val);
        ret + [[val]]
      else
        GrowRun(ret, xs[..|xs| - 1], val);
        ret[..|ret| - 1] + [Last(ret) + [val]]
  }

  /** A value that does not continue the last run starts a run of its own. */
  lemma StartRun(ret: seq<seq<nat>>, xs: seq<nat>, val: nat)
    requires MaximalRuns(ret, xs)
    requires |ret| == 0 || Last(Last(ret)) + 1 != val
    ensures MaximalRuns(ret + [[val]], xs + [val])
  {
    FlattenSnoc(ret, [val]);
    var runs := ret + [[val]];
    forall i | 0 <= i < |runs| - 1
      ensures Last(runs[i]) + 1 != runs[i + 1][0]
    {
      assert runs[i] == ret[i];
    }
  }

  /** A value one past the last run's end extends that run. */
  lemma GrowRun(ret: seq<seq<nat>>, xs: seq<nat>, val: nat)
    requires MaximalRuns(ret, xs)
    requires |ret| > 0 && Last(Last(ret)) + 1 == val
    ensures MaximalRuns(ret[..|ret| - 1] + [Last(ret) + [val]], xs + [val])
  {
    var front := ret[..|ret| - 1];
    var grown := Last(ret) + [val];
    assert ret == front + [Last(ret)];
    FlattenSnoc(front, Last(ret));
    FlattenSnoc(front, grown);
    assert Consecutive(grown);
    var runs := front + [grown];
    forall i | 0 <= i < |runs| - 1
      ensures Last(runs[i]) + 1 != runs[i + 1][0]
    {
      assert runs[i] == ret[i];
      assert runs[i + 1][0] == ret[i + 1][0];
    }
  }

  lemma FlattenEmpty(runs: seq<seq<nat>>)
    requires forall i :: 0 <= i < |runs| ==> |runs[i]| > 0
    ensures Flatten(runs) == [] <==> runs == []
  {
    if |runs| > 0 {
      assert |Flatten(runs)| >= |runs[0]|;
    }
  }

  /** Dropping the first run leaves a maximal cut of the rest. */
  lemma MaximalTail(runs: seq<seq<nat>>, xs: seq<nat>)
    requires MaximalRuns(runs, xs) && |runs| > 0
    ensures |runs[0]| <= |xs| && runs[0] == xs[..|runs[0]|]
    ensures MaximalRuns(runs[1..], xs[|runs[0]|..])
  {
    assert xs == runs[0] + Flatten(runs[1..]);
    assert xs[|runs[0]|..] == Flatten(runs[1..]);
    var tail := runs[1..];
    forall i | 0 <= i < |tail| - 1
      ensures Last(tail[i]) + 1 != tail[i + 1][0]
    {
      assert tail[i] == runs[i + 1] && tail[i + 1] == runs[i + 2];
    }
  }

  /** The first run of a maximal cut stops where the ids stop being consecutive. */
  lemma FirstRunEnds(a: seq<seq<nat>>, xs: seq<nat>)
    requires MaximalRuns(a, xs) && |a| > 0
    ensures |a[0]| == |xs| || xs[|a[0]|] != xs[0] + |a[0]|
  {
    MaximalTail(a, xs);
    var p := |a[0]|;
    if p < |xs| {
      FlattenEmpty(a[1..]);
      assert Flatten(a[1..]) == a[1] + Flatten(a[2..]) by {
        assert a[1..][1..] == a[2..];
      }
      assert xs[p] == a[1][0];
      assert Last(a[0]) == xs[0] + p - 1;
    }
  }

  /** A first run can be no longer than the first run of another maximal cut. */
  lemma FirstRunNoLonger(a: seq<seq<nat>>, b: seq<seq<nat>>, xs: seq<nat>)
    requires MaximalRuns(a, xs) && MaximalRuns(b, xs)
    requires |a| > 0 && |b| > 0
    ensures |b[0]| <= |a[0]|
  {
    MaximalTail(a, xs);
    MaximalTail(b, xs);
    FirstRunEnds(a, xs);
    ConsecutivePrefix(b[0], xs);
  }

  lemma ConsecutivePrefix(run: seq<nat>, xs: seq<nat>)
    requires Consecutive(run) && |run| <= |xs| && run == xs[..|run|]
    ensures forall k :: 0 <= k < |run| ==> xs[k] == xs[0] + k
  {
    assert forall k :: 0 <= k < |run| ==> xs[k] == run[k];
  }

  /** There is only one way to cut a list into maximal runs. */
  lemma {:induction false} RunsUnique(a: seq<seq<nat>>, b: seq<seq<nat>>, xs: seq<nat>)
    requires MaximalRuns(a, xs) && MaximalRuns(b, xs)
    ensures a == b
    decreases |xs|
  {
    FlattenEmpty(a);
    FlattenEmpty(b);
    if |a| > 0 && |b| > 0 {
      FirstRunNoLonger(a, b, xs);
      FirstRunNoLonger(b, a, xs);
      MaximalTail(a, xs);
      MaximalTail(b, xs);
      RunsUnique(a[1..], b[1..], xs[|a[0]|..]);
      assert a == [a[0]] + a[1..];
      assert b == [b[0]] + b[1..];
    }
  }

  /** One run as `listToRanges` prints it: `first` for a run of one, else
      `first-last`. */
  function RenderRun(run: seq<nat>): (s: string)
    requires Consecutive(run)
    ensures |s| > 0 && ',' !in s
    ensures '-' in s <==> |run| > 1
  {
    var a := NatToString(run[0]);
    var b := NatToString(Last(run));
    assert forall i :: 0 <= i < |a| ==> IsDigit(a[i]);
    assert forall i :: 0 <= i < |b| ==> IsDigit(b[i]);
    if |run| == 1 then a
    else
      assert (a + "-" + b)[|a|] == '-';
      a + "-" + b
  }

  function RenderRuns(runs: seq<seq<nat>>): (items: seq<string>)
    requires forall i :: 0 <= i < |runs| ==> Consecutive(runs[i])
    ensures |items| == |runs|
    ensures forall i :: 0 <= i < |runs| ==> items[i] == RenderRun(runs[i])
  {
    if |runs| == 0 then []
    else
      assert Consecutive(runs[0]);
      [RenderRun(runs[0])] + RenderRuns(runs[1..])
  }

  /** `listToRanges(S)`: the ascending ids of `S` cut into maximal runs, each
      printed by `RenderRun`, joined by `,`; empty exactly for the empty set. */
  function ListToRanges(s: set<nat>): (r: string)
    ensures r == "" <==> s == {}
  {
    var xs := SortedElements(s);
    var runs := Group(xs);
    FlattenEmpty(runs);
    assert runs != [] ==> |RenderRuns(runs)[0]| > 0;
    Join(RenderRuns(runs), ',')
  }

  /** The printed form is fixed by the set alone: whatever maximal cut of the
      ascending ids one starts from, printing it gives `listToRanges(S)`. */
  lemma ListToRangesShape(s: set<nat>, runs: seq<seq<nat>>)
    requires MaximalRuns(runs, SortedElements(s))
    ensures ListToRanges(s) == Join(RenderRuns(runs), ',')
  {
    RunsUnique(runs, Group(SortedElements(s)), SortedElements(s));
  }

  /** A printed run parses back to the run. */
  lemma ParseRun(run: seq<nat>)
    requires Consecutive(run)
    ensures ParseItem(RenderRun(run)) == Ok(run)
  {
    if |run| == 1 {
      assert RenderRun(run) == NatToString(run[0]);
      ParseSingle(NatToString(run[0]));
      assert run == [run[0]];
    } else {
      assert RenderRun(run) == NatToString(run[0]) + "-" + NatToString(Last(run));
      ParseLongRun(run);
    }
  }

  lemma ParseLongRun(run: seq<nat>)
    requires Consecutive(run) && |run| > 1
    ensures ParseItem(NatToString(run[0]) + "-" + NatToString(Last(run))) == Ok(run)
  {
    RangeOfRun(run);
    SpanGives(run[0], Last(run), run);
  }

  lemma SpanGives(lo: nat, hi: nat, run: seq<nat>)
    requires Range(lo, hi + 1) == run
    ensures ParseItem(NatToString(lo) + "-" + NatToString(hi)) == Ok(run)
  {
    SpanItem(NatToString(lo), NatToString(hi), lo, hi);
  }

  /** `range(first, last + 1)` rebuilds a run. */
  lemma RangeOfRun(run: seq<nat>)
    requires Consecutive(run)
    ensures Range(run[0], Last(run) + 1) == run
  {
    var r := Range(run[0], Last(run) + 1);
    assert |r| == |run|;
    assert forall k :: 0 <= k < |r| ==> r[k] == run[k];
  }

  lemma {:induction false} ParseRuns(runs: seq<seq<nat>>)
    requires forall i :: 0 <= i < |runs| ==> Consecutive(runs[i])
    ensures ParseItems(RenderRuns(runs)) == Ok(Flatten(runs))
    decreases |runs|
  {
    if |runs| > 0 {
      ParseRun(runs[0]);
      ParseRuns(runs[1..]);
      assert RenderRuns(runs)[1..] == RenderRuns(runs[1..]);
    }
  }

  /** Round trip: parsing `listToRanges(S)` gives back the ids of a non-empty
      set `S`, ascending, each once. */
  lemma RoundTrip(s: set<nat>)
    requires s != {}
    ensures ParseCpuList(ListToRanges(s)) == Ok(SortedElements(s))
  {
    var xs := SortedElements(s);
    var runs := Group(xs);
    FlattenEmpty(runs);
    assert |xs| > 0;
    var items := RenderRuns(runs);
    assert forall i :: 0 <= i < |items| ==> ',' !in items[i];
    SplitJoin(items, ',');
    ParseRuns(runs);
  }

  /** The one set the round trip misses: the empty set prints as `""`, which the
      parse loop rejects. */
  lemma EmptyDoesNotRoundTrip()
    ensures ListToRanges({}) == ""
    ensures ParseCpuList(ListToRanges({})).Err?
  {
  }
}

=== FILE: faults.dfy ===
/** The failures the tool can run into, and a result type that carries them.
    Each constructor stands for one Python exception raised by the core. */
module Faults {

  datatype Fault =
      /** `int(text)` raised ValueError: `text` is not a base-10 literal. */
    | InvalidLiteral(text: string)
      /** `1 << n` raised ValueError because `n` is negative. */
    | NegativeShift(count: int)
      /** `topology['cpus']['cpu' + str(cpu)]` raised KeyError. */
    | MissingCpu(cpu: nat)
      /** `cpulist[0]` raised IndexError while reserving on the named node. */
    | NoCpuLeft(node: string)

  datatype Result<+T> = Ok(value: T) | Err(error: Fault)
}

=== FILE: ordering.dfy ===
/** Orderings on CPU-id lists: Python's `sorted(list)` and `sorted(set)`, and
    what it means for a list to enumerate a set (`list(set(...))`). */
module Ordering {

  /** `set(xs)` */
  function Elements(xs: seq<nat>): set<nat>
  {
    set x | x in xs
  }

  /** Non-decreasing. */
  predicate Sorted(xs: seq<nat>)
  {
    forall i, j :: 0 <= i < j < |xs| ==> xs[i] <= xs[j]
  }

  /** Strictly increasing. */
  predicate Increasing(xs: seq<nat>)
  {
    forall i, j :: 0 <= i < j < |xs| ==> xs[i] < xs[j]
  }

  predicate NoDuplicates(xs: seq<nat>)
  {
    forall i, j :: 0 <= i < j < |xs| ==> xs[i] != xs[j]
  }

  /** `xs` could be `list(S)`: every element of `S` exactly once, in some order. */
  predicate Enumerates(xs: seq<nat>, s: set<nat>)
  {
    NoDuplicates(xs) && Elements(xs) == s
  }

  /** `m` is the smallest element of `s`. */
  predicate Least(m: nat, s: set<nat>)
  {
    m in s && forall y :: y in s ==> m <= y
  }

  /** `m` is the smallest id in `xs`. */
  predicate IsMin(m: nat, xs: seq<nat>)
  {
    Least(m, Elements(xs))
  }

  /** A list has at least as many entries as distinct values. */
  lemma {:induction false} ElementsBound(xs: seq<nat>)
    ensures |Elements(xs)| <= |xs|
  {
    if |xs| > 0 {
      ElementsBound(xs[1..]);
      assert xs == [xs[0]] + xs[1..];
      assert Elements(xs) == {xs[0]} + Elements(xs[1..]);
    }
  }

  /** A list without duplicates has exactly as many distinct values as
      entries. */
  lemma {:induction false} DistinctCount(xs: seq<nat>)
    requires NoDuplicates(xs)
    ensures |Elements(xs)| == |xs|
  {
    if |xs| > 0 {
      DistinctCount(xs[1..]);
      assert xs == [xs[0]] + xs[1..];
      assert Elements(xs) == {xs[0]} + Elements(xs[1..]);
      assert xs[0] !in xs[1..];
    }
  }

  /** Inserts `x` into a sorted list, before the first larger-or-equal entry. */
  function Insert(x: nat, xs: seq<nat>): (r: seq<nat>)
    requires Sorted(xs)
    ensures |r| == |xs| + 1
  {
    if |xs| == 0 || x <= xs[0] then [x] + xs
    else [xs[0]] + Insert(x, xs[1..])
  }

  /** A lower bound of `x` and of every entry bounds every entry after insertion. */
  lemma {:induction false} InsertAbove(x: nat, xs: seq<nat>, b: nat)
    requires Sorted(xs)
    requires b <= x && forall y :: y in xs ==> b <= y
    ensures forall y :: y in Insert(x, xs) ==> b <= y
  {
    if |xs| > 0 && x > xs[0] {
      assert forall y :: y in xs[1..] ==> y in xs;
      InsertAbove(x, xs[1..], b);
      var r := [xs[0]] + Insert(x, xs[1..]);
      assert r == Insert(x, xs);
      assert xs[0] in xs;
      assert forall y :: y in r ==> y == xs[0] || y in Insert(x, xs[1..]);
    } else {
      assert forall y :: y in [x] + xs ==> y == x || y in xs;
    }
  }

  /** Insertion keeps a list sorted. */
  lemma {:induction false} InsertSorted(x: nat, xs: seq<nat>)
    requires Sorted(xs)
    ensures Sorted(Insert(x, xs))
  {
    if |xs| > 0 && x > xs[0] {
      var rest := Insert(x, xs[1..]);
      InsertSorted(x, xs[1..]);
      InsertAbove(x, xs[1..], xs[0]);
      var r := [xs[0]] + rest;
      forall i, j | 0 <= i < j < |r|
        ensures r[i] <= r[j]
      {
        assert r[j] == rest[j - 1];
        if i > 0 {
          assert r[i] == rest[i - 1];
        } else {
          assert rest[j - 1] in rest;
        }
      }
    }
  }

  /** Insertion adds exactly one `x` and keeps every other entry. */
  lemma {:induction false} InsertCount(x: nat, xs: seq<nat>)
    requires Sorted(xs)
    ensures multiset(Insert(x, xs)) == multiset(xs) + multiset{x}
  {
    if |xs| > 0 && x > xs[0] {
      InsertCount(x, xs[1..]);
      assert xs == [xs[0]] + xs[1..];
    }
  }

  /** `sorted(xs)`: the same entries, duplicates kept, in non-decreasing order. */
  function Sort(xs: seq<nat>): (r: seq<nat>)
    ensures Sorted(r)
    ensures multiset(r) == multiset(xs)
  {
    if |xs| == 0 then []
    else
      assert xs == [xs[0]] + xs[1..];
      InsertSorted(xs[0], Sort(xs[1..]));
      InsertCount(xs[0], Sort(xs[1..]));
      Insert(xs[0], Sort(xs[1..]))
  }

  /** The head of a sorted copy of a non-empty list is its minimum. */
  lemma SortHeadIsMin(xs: seq<nat>)
    requires |xs| > 0
    ensures |Sort(xs)| > 0 && IsMin(Sort(xs)[0], xs)
  {
    var r := Sort(xs);
    assert |r| == |multiset(xs)| == |xs|;
    assert r[0] in multiset(xs);
    forall x | x in xs
      ensures r[0] <= x
    {
      assert x in multiset(r);
    }
  }

  /** Sorting keeps the set of values. */
  lemma SortElements(xs: seq<nat>)
    ensures Elements(Sort(xs)) == Elements(xs)
  {
    var r := Sort(xs);
    forall x
      ensures x in r <==> x in xs
    {
      assert x in r <==> x in multiset(r);
      assert x in xs <==> x in multiset(xs);
    }
  }

  lemma {:induction false} MinExists(s: set<nat>)
    requires s != {}
    ensures exists m :: Least(m, s)
    decreases |s|
  {
    var y :| y in s;
    var rest := s - {y};
    if rest == {} {
      assert Least(y, s) by {
        forall z | z in s
          ensures y <= z
        {
          assert z !in rest;
        }
      }
    } else {
      MinExists(rest);
      var m :| Least(m, rest);
      var w := if y < m then y else m;
      assert Least(w, s) by {
        forall z | z in s
          ensures w <= z
        {
          if z != y {
            assert z in rest;
          }
        }
      }
    }
  }

  /** The smallest element of a non-empty set. */
  function Min(s: set<nat>): (m: nat)
    requires s != {}
    ensures Least(m, s)
  {
    MinExists(s);
    var m :| Least(m, s);
    m
  }

  /** `sorted(s)` for a set: its elements, each once, in increasing order. */
  function SortedElements(s: set<nat>): (r: seq<nat>)
    ensures Increasing(r)
    ensures Elements(r) == s
    ensures |r| == |s|
    decreases |s|
  {
    if s == {} then []
    else
      var m := Min(s);
      var rest := SortedElements(s - {m});
      var r := [m] + rest;
      assert Increasing(r) by {
        forall i, j | 0 <= i < j < |r|
          ensures r[i] < r[j]
        {
          assert r[j] == rest[j - 1];
          assert r[j] in Elements(rest);
          if i > 0 {
            assert r[i] == rest[i - 1];
          }
        }
      }
      assert Elements(r) == s by {
        forall x
          ensures x in Elements(r) <==> x in s
        {
          assert x in r <==> x == m || x in rest;
          assert x in rest <==> x in Elements(rest);
        }
      }
      r
  }

  /** An increasing list enumerates its set without duplicates. */
  lemma IncreasingEnumerates(xs: seq<nat>)
    requires Increasing(xs)
    ensures Enumerates(xs, Elements(xs))
  {
  }

  lemma NoElements(xs: seq<nat>)
    ensures Elements(xs) == {} <==> xs == []
  {
    if |xs| > 0 {
      assert xs[0] in Elements(xs);
    }
  }

  /** Two increasing lists with the same values are equal: `sorted(S)` is
      determined by `S`. */
  lemma {:induction false} IncreasingUnique(a: seq<nat>, b: seq<nat>)
    requires Increasing(a) && Increasing(b)
    requires Elements(a) == Elements(b)
    ensures a == b
    decreases |a|
  {
    if |a| > 0 && |b| > 0 {
      assert a[0] in Elements(b) && b[0] in Elements(a);
      assert a[0] == b[0] by {
        assert a[0] in b && b[0] in a;
      }
      assert Elements(a[1..]) == Elements(a) - {a[0]} by {
        assert a == [a[0]] + a[1..];
      }
      assert Elements(b[1..]) == Elements(b) - {b[0]} by {
        assert b == [b[0]] + b[1..];
      }
      IncreasingUnique(a[1..], b[1..]);
      assert a == [a[0]] + a[1..] && b == [b[0]] + b[1..];
    } else if |a| == 0 {
      NoElements(b);
    } else {
      NoElements(a);
    }
  }

  /** `|A - B| >= |A| - |B|` */
  lemma DifferenceBound(a: set<nat>, b: set<nat>)
    ensures |a - b| >= |a| - |b|
  {
    assert a == (a - b) + (a * b);
    assert (a - b) !! (a * b);
    assert b == (a * b) + (b - a);
    assert (a * b) !! (b - a);
  }
}

=== FILE: partition.dfy ===
/** The plan `main` (topology.py:132-221) derives from the topology once it is
    read: the OS pass, then the PMD pass on what the OS pass left, the two
    affinity masks, and the isolated-CPU range list for the kernel command line.
    Reading sysfs, printing the table and the recommendations are not part of
    the model; the node list and the sibling map come in as values. */
module Partition {
  import opened Faults
  import opened Ordering
  import opened Text
  import opened CpuList
  import opened Bitmask
  import opened Reservation

  // ---------------------------------------------------------------------------
  // shapes of a sibling map
  // ---------------------------------------------------------------------------

  /** The shape Linux gives `thread_siblings_list`: every keyed CPU is its own
      sibling, and the CPUs of one list are all keyed and all carry the same
      set of siblings. */
  ghost predicate SiblingGroups(sibs: Siblings)
  {
    && (forall x :: x in sibs ==> x in sibs[x])
    && (forall x, y :: x in sibs && y in sibs[x] ==> y in sibs && Elements(sibs[y]) == Elements(sibs[x]))
  }

  /** The siblings of every keyed CPU of `xs` lie in `xs`. */
  ghost predicate Closed(sibs: Siblings, xs: seq<nat>)
  {
    forall x, y :: x in xs && x in sibs && y in sibs[x] ==> y in xs
  }

  /** Hyper-threads never span NUMA nodes: each node's list is closed under
      siblings, and no CPU is on two nodes. */
  ghost predicate NodeLocal(nodes: seq<NumaNode>, sibs: Siblings)
  {
    && (forall k :: 0 <= k < |nodes| ==> Closed(sibs, nodes[k].cpulist))
    && (forall k, l, x :: 0 <= k < |nodes| && 0 <= l < |nodes| && k != l && x in nodes[k].cpulist ==> x !in nodes[l].cpulist)
  }

  /** A reservation holds whole sibling groups: every CPU in it is keyed and
      brings all its siblings along. */
  ghost predicate WholeGroups(sibs: Siblings, cores: seq<nat>)
  {
    && (forall x :: x in cores ==> x in sibs)
    && (forall x, y :: x in cores && x in sibs && y in sibs[x] ==> y in cores)
  }

  /** With group-shaped siblings, a sibling of `s` has the siblings `s` has. */
  lemma SameSiblings(sibs: Siblings, s: nat, x: nat)
    requires SiblingGroups(sibs)
    requires s in sibs && x in sibs[s]
    ensures x in sibs && forall y :: y in sibs[x] <==> y in sibs[s]
  {
    assert Elements(sibs[x]) == Elements(sibs[s]);
    forall y
      ensures y in sibs[x] <==> y in sibs[s]
    {
      assert y in sibs[x] <==> y in Elements(sibs[x]);
      assert y in sibs[s] <==> y in Elements(sibs[s]);
    }
  }

  /** With group-shaped siblings, a CPU that shares a sibling with a reserved
      CPU is itself reserved. */
  lemma ShareGroup(sibs: Siblings, seeds: seq<nat>, x: nat, c: nat)
    requires SiblingGroups(sibs) && Keyed(sibs, seeds)
    requires c in sibs && x in sibs[c] && x in CoreSiblings(sibs, seeds).value
    ensures c in CoreSiblings(sibs, seeds).value
  {
    CoreSiblingsMembers(sibs, seeds);
    var i :| 0 <= i < |seeds| && x in sibs[seeds[i]];
    SameSiblings(sibs, seeds[i], x);
    SameSiblings(sibs, c, x);
    assert c in sibs[c];
    assert c in sibs[seeds[i]];
  }

  /** With group-shaped siblings, the lookup of any seeds is a union of whole
      groups. */
  lemma GroupsAreWhole(sibs: Siblings, seeds: seq<nat>)
    requires SiblingGroups(sibs) && Keyed(sibs, seeds)
    ensures WholeGroups(sibs, CoreSiblings(sibs, seeds).value)
  {
    var got := CoreSiblings(sibs, seeds).value;
    CoreSiblingsMembers(sibs, seeds);
    forall x | x in got
      ensures x in sibs && forall y :: y in sibs[x] ==> y in got
    {
      var i :| 0 <= i < |seeds| && x in sibs[seeds[i]];
      SameSiblings(sibs, seeds[i], x);
      forall y | y in sibs[x]
        ensures y in got
      {
        assert y in sibs[seeds[i]];
      }
    }
  }

  /** With group-shaped siblings, seeds picked outside an earlier reservation
      reserve nothing it holds. */
  lemma SeparateGroups(sibs: Siblings, first: seq<nat>, second: seq<nat>)
    requires SiblingGroups(sibs) && Keyed(sibs, first) && Keyed(sibs, second)
    requires forall j :: 0 <= j < |second| ==> second[j] !in CoreSiblings(sibs, first).value
    ensures forall x :: x in CoreSiblings(sibs, second).value ==> x !in CoreSiblings(sibs, first).value
  {
    CoreSiblingsMembers(sibs, second);
    forall x | x in CoreSiblings(sibs, second).value
      ensures x !in CoreSiblings(sibs, first).value
    {
      var j :| 0 <= j < |second| && x in sibs[second[j]];
      if x in CoreSiblings(sibs, first).value {
        ShareGroup(sibs, first, x, second[j]);
      }
    }
  }

  // ---------------------------------------------------------------------------
  // one node through both passes
  // ---------------------------------------------------------------------------

  /** What the two passes leave on one node: `orig` as read, `fin` after the
      PMD pass, with `osSeeds` and `pmdSeeds` the cores each pass picked.
      - The OS pass starts from the lowest CPU; the PMD pass starts from the
        lowest CPU the OS pass did not reserve, and none of its seeds is
        OS-reserved.
      - The node's final list is its original list minus both reservations.
      - With group-shaped siblings both reservations are whole groups and
        disjoint; with a sibling-closed node they and the final list cover it. */
  ghost predicate NodeShare(orig: NumaNode, fin: NumaNode, sibs: Siblings, osCount: int, pmdCount: int, osSeeds: seq<nat>, pmdSeeds: seq<nat>)
  {
    && fin.name == orig.name
    && |osSeeds| == (if osCount > 0 then osCount else 0)
    && |pmdSeeds| == (if pmdCount > 0 then pmdCount else 0)
    && Keyed(sibs, osSeeds) && Keyed(sibs, pmdSeeds)
    && CoreSiblings(sibs, osSeeds) == Ok(fin.osCores)
    && CoreSiblings(sibs, pmdSeeds) == Ok(fin.pmdCores)
    && (osCount > 0 ==> IsMin(osSeeds[0], orig.cpulist))
    && (forall j :: 0 <= j < |osSeeds| ==> osSeeds[j] in orig.cpulist)
    && (forall j :: 0 <= j < |pmdSeeds| ==> pmdSeeds[j] in orig.cpulist && pmdSeeds[j] !in fin.osCores)
    && (pmdCount > 0 ==> forall x :: x in orig.cpulist && x !in fin.osCores ==> pmdSeeds[0] <= x)
    && (forall x :: x in fin.cpulist <==> x in orig.cpulist && x !in fin.osCores && x !in fin.pmdCores)
    && (SiblingGroups(sibs) ==> WholeGroups(sibs, fin.osCores) && WholeGroups(sibs, fin.pmdCores))
    && (SiblingGroups(sibs) ==> forall x :: x in fin.pmdCores ==> x !in fin.osCores)
    && (Closed(sibs, orig.cpulist) ==> forall x :: x in orig.cpulist <==> x in fin.osCores || x in fin.pmdCores || x in fin.cpulist)
  }

  /** Reservations of seeds from a sibling-closed list stay inside it. */
  lemma ReservedWithin(sibs: Siblings, seeds: seq<nat>, xs: seq<nat>)
    requires Keyed(sibs, seeds) && Closed(sibs, xs)
    requires forall j :: 0 <= j < |seeds| ==> seeds[j] in xs
    ensures forall x :: x in CoreSiblings(sibs, seeds).value ==> x in xs
  {
    CoreSiblingsMembers(sibs, seeds);
    forall x | x in CoreSiblings(sibs, seeds).value
      ensures x in xs
    {
      var j :| 0 <= j < |seeds| && x in sibs[seeds[j]];
      assert seeds[j] in xs;
    }
  }

  /** The OS pass and then the PMD pass on one node give `NodeShare`. */
  lemma BothPasses(orig: NumaNode, mid: NumaNode, fin: NumaNode, sibs: Siblings, osCount: int, pmdCount: int, osSeeds: seq<nat>, pmdSeeds: seq<nat>)
    requires NodeUpdated(orig, mid, OsPool, osCount, sibs, osSeeds)
    requires NodeUpdated(mid, fin, PmdPool, pmdCount, sibs, pmdSeeds)
    ensures NodeShare(orig, fin, sibs, osCount, pmdCount, osSeeds, pmdSeeds)
  {
    assert fin.osCores == mid.osCores;
    if pmdCount > 0 {
      assert pmdSeeds[0] in mid.cpulist;
      forall x | x in orig.cpulist && x !in fin.osCores
        ensures pmdSeeds[0] <= x
      {
        assert x in Elements(mid.cpulist);
      }
    }
    if SiblingGroups(sibs) {
      GroupsAreWhole(sibs, osSeeds);
      GroupsAreWhole(sibs, pmdSeeds);
      SeparateGroups(sibs, osSeeds, pmdSeeds);
    }
    if Closed(sibs, orig.cpulist) {
      ReservedWithin(sibs, osSeeds, orig.cpulist);
      ReservedWithin(sibs, pmdSeeds, orig.cpulist);
    }
  }

  // ---------------------------------------------------------------------------
  // when the plan exists
  // ---------------------------------------------------------------------------

  /** Both tunables are positive, every CPU of every node has a sibling entry,
      and a node still has a CPU left after `osPerNode + pmdPerNode - 1` of its
      widest sibling lists are taken out. */
  predicate Room(nodes: seq<NumaNode>, sibs: Siblings, osPerNode: int, pmdPerNode: int)
  {
    && osPerNode > 0 && pmdPerNode > 0
    && forall k :: 0 <= k < |nodes| ==>
         Keyed(sibs, nodes[k].cpulist) && (osPerNode + pmdPerNode - 1) * Widest(sibs, nodes[k].cpulist) < |Elements(nodes[k].cpulist)|
  }

  /** Some CPU of some node has an empty sibling list, so a seed can reserve
      nothing. */
  predicate EmptySiblingEntry(nodes: seq<NumaNode>, sibs: Siblings)
  {
    exists k, x :: 0 <= k < |nodes| && x in nodes[k].cpulist && x in sibs && sibs[x] == []
  }

  /** The widest sibling list of a sub-list is no wider. */
  lemma {:induction false} WidestWithin(sibs: Siblings, ys: seq<nat>, xs: seq<nat>)
    requires forall y :: y in ys ==> y in xs
    ensures Widest(sibs, ys) <= Widest(sibs, xs)
    decreases |ys|
  {
    if |ys| > 0 {
      assert ys[0] in xs;
      assert forall y :: y in ys[1..] ==> y in ys;
      WidestWithin(sibs, ys[1..], xs);
    }
  }

  /** Room for both passes leaves room for the OS pass alone. */
  lemma RoomForOs(nodes: seq<NumaNode>, sibs: Siblings, osPerNode: int, pmdPerNode: int)
    ensures Room(nodes, sibs, osPerNode, pmdPerNode) ==>
      forall k :: 0 <= k < |nodes| ==> Keyed(sibs, nodes[k].cpulist) && (osPerNode - 1) * Widest(sibs, nodes[k].cpulist) < |Elements(nodes[k].cpulist)|
  {
    forall k | 0 <= k < |nodes| && Room(nodes, sibs, osPerNode, pmdPerNode)
      ensures (osPerNode - 1) * Widest(sibs, nodes[k].cpulist) < |Elements(nodes[k].cpulist)|
    {
      MulMono(osPerNode - 1, osPerNode + pmdPerNode - 1, Widest(sibs, nodes[k].cpulist));
    }
  }

  /** What an OS pass of `osPerNode` seeds leaves on a node with room for both
      passes is room for the PMD pass. */
  lemma RoomLeft(cpulist: seq<nat>, osPerNode: int, pmdPerNode: int, sibs: Siblings, seeds: seq<nat>, reserved: seq<nat>, remaining: seq<nat>)
    requires PassFacts(cpulist, osPerNode, sibs, seeds, reserved, remaining)
    requires osPerNode > 0 && pmdPerNode > 0 && Keyed(sibs, cpulist)
    requires (osPerNode + pmdPerNode - 1) * Widest(sibs, cpulist) < |Elements(cpulist)|
    ensures Keyed(sibs, remaining)
    ensures (pmdPerNode - 1) * Widest(sibs, remaining) < |Elements(remaining)|
  {
    assert forall y :: y in remaining ==> y in cpulist;
    KeyedWithin(sibs, remaining, cpulist);
    WidestWithin(sibs, remaining, cpulist);
    RoomArith(osPerNode, pmdPerNode, Widest(sibs, cpulist), Widest(sibs, remaining), |Elements(cpulist)|, |Elements(remaining)|);
  }

  /** A sub-list of a keyed list is keyed. */
  lemma KeyedWithin(sibs: Siblings, ys: seq<nat>, xs: seq<nat>)
    requires Keyed(sibs, xs) && forall y :: y in ys ==> y in xs
    ensures Keyed(sibs, ys)
  {
    forall i | 0 <= i < |ys|
      ensures ys[i] in sibs
    {
      assert ys[i] in xs;
      var j :| 0 <= j < |xs| && xs[j] == ys[i];
    }
  }

  /** The counting behind `RoomLeft`: `o` lists of width at most `w` taken out
      of `e` CPUs leave `f`; `p - 1` lists of width `v <= w` fit in what is
      left. */
  lemma RoomArith(o: int, p: int, w: nat, v: nat, e: int, f: int)
    requires o > 0 && p > 0 && v <= w
    requires f + o * w >= e && (o + p - 1) * w < e
    ensures (p - 1) * v < f
  {
    MulMono(v, w, p - 1);
    assert (o + p - 1) * w == o * w + (p - 1) * w;
  }

  /** After an OS pass on nodes with room for both passes, every node has room
      for the PMD pass. */
  lemma RoomForPmd(nodes: seq<NumaNode>, os: PoolPass, sibs: Siblings, osPerNode: int, pmdPerNode: int)
    requires |os.nodes| == |nodes| && |os.seeds| == |nodes|
    requires forall k :: 0 <= k < |nodes| ==> NodeUpdated(nodes[k], os.nodes[k], OsPool, osPerNode, sibs, os.seeds[k])
    ensures Room(nodes, sibs, osPerNode, pmdPerNode) ==>
      forall k :: 0 <= k < |os.nodes| ==> Keyed(sibs, os.nodes[k].cpulist) && (pmdPerNode - 1) * Widest(sibs, os.nodes[k].cpulist) < |Elements(os.nodes[k].cpulist)|
  {
    forall k | 0 <= k < |os.nodes| && Room(nodes, sibs, osPerNode, pmdPerNode)
      ensures Keyed(sibs, os.nodes[k].cpulist) && (pmdPerNode - 1) * Widest(sibs, os.nodes[k].cpulist) < |Elements(os.nodes[k].cpulist)|
    {
      assert NodeUpdated(nodes[k], os.nodes[k], OsPool, osPerNode, sibs, os.seeds[k]);
      RoomLeft(nodes[k].cpulist, osPerNode, pmdPerNode, sibs, os.seeds[k], os.nodes[k].osCores, os.nodes[k].cpulist);
    }
  }

  /** A node's pool is non-empty once a pass with a positive count has run on
      it, unless a CPU of the node has an empty sibling list. */
  lemma PoolsFilled(nodes: seq<NumaNode>, fin: seq<NumaNode>, sibs: Siblings, osCount: int, pmdCount: int, osSeeds: seq<seq<nat>>, pmdSeeds: seq<seq<nat>>)
    requires |fin| == |nodes| && |osSeeds| == |nodes| && |pmdSeeds| == |nodes|
    requires forall k :: 0 <= k < |nodes| ==> NodeShare(nodes[k], fin[k], sibs, osCount, pmdCount, osSeeds[k], pmdSeeds[k])
    ensures |nodes| > 0 && !EmptySiblingEntry(nodes, sibs) && osCount > 0 ==> Gathered(fin, OsPool) != []
    ensures |nodes| > 0 && !EmptySiblingEntry(nodes, sibs) && pmdCount > 0 ==> Gathered(fin, PmdPool) != []
  {
    if |nodes| == 0 || EmptySiblingEntry(nodes, sibs) {
      return;
    }
    assert NodeShare(nodes[0], fin[0], sibs, osCount, pmdCount, osSeeds[0], pmdSeeds[0]);
    if osCount > 0 {
      var s := osSeeds[0][0];
      assert s in nodes[0].cpulist && s in sibs;
      assert sibs[s] != [];
      CoreSiblingsMembers(sibs, osSeeds[0]);
      assert sibs[s][0] in Reserved(fin[0], OsPool);
    }
    if pmdCount > 0 {
      var s := pmdSeeds[0][0];
      assert s in nodes[0].cpulist && s in sibs;
      assert sibs[s] != [];
      CoreSiblingsMembers(sibs, pmdSeeds[0]);
      assert sibs[s][0] in Reserved(fin[0], PmdPool);
    }
  }

  /** Two nodes of four CPUs each, CPUs 0-3 and 4-7, with hyper-thread pairs
      (0,2), (1,3), (4,6) and (5,7). */
  function Pairs(): Siblings
  {
    map x: nat | x < 8 :: if x % 4 < 2 then [x, x + 2] else [x - 2, x]
  }

  function PairNodes(): seq<NumaNode>
  {
    [NumaNode("node0", [0, 1, 2, 3], [], []), NumaNode("node1", [4, 5, 6, 7], [], [])]
  }

  /** With one OS core and one PMD core per node, the paired layout has room
      for both passes and no empty sibling list. */
  lemma PairsHaveRoom()
    ensures Room(PairNodes(), Pairs(), 1, 1) && !EmptySiblingEntry(PairNodes(), Pairs())
  {
    var nodes := PairNodes();
    assert forall x :: x in Pairs() ==> |Pairs()[x]| == 2;
    forall k | 0 <= k < |nodes|
      ensures Keyed(Pairs(), nodes[k].cpulist) && Widest(Pairs(), nodes[k].cpulist) < |Elements(nodes[k].cpulist)|
    {
      PairNodeRoom(nodes[k].cpulist);
    }
  }

  /** Either node of the paired layout is keyed and has more CPUs than its
      widest sibling list. */
  lemma PairNodeRoom(xs: seq<nat>)
    requires xs == [0, 1, 2, 3] || xs == [4, 5, 6, 7]
    ensures Keyed(Pairs(), xs) && Widest(Pairs(), xs) < |Elements(xs)|
  {
    DistinctCount(xs);
    WidestAtMost(Pairs(), xs, 2);
  }

  /** Sibling lists of width at most `w` bound the widest one. */
  lemma {:induction false} WidestAtMost(sibs: Siblings, xs: seq<nat>, w: nat)
    requires forall x :: x in xs && x in sibs ==> |sibs[x]| <= w
    ensures Widest(sibs, xs) <= w
    decreases |xs|
  {
    if |xs| > 0 {
      assert forall x :: x in xs[1..] ==> x in xs;
      WidestAtMost(sibs, xs[1..], w);
    }
  }

  // ---------------------------------------------------------------------------
  // the plan
  // ---------------------------------------------------------------------------

  /** `topology['host_cores']`: every node's list as read, chained in node
      order; it holds exactly the CPUs of some node. */
  function HostCores(nodes: seq<NumaNode>): (cores: seq<nat>)
    ensures forall x :: x in cores <==> exists k :: 0 <= k < |nodes| && x in nodes[k].cpulist
  {
    if |nodes| == 0 then []
    else
      var front := nodes[..|nodes| - 1];
      var cores := HostCores(front) + nodes[|nodes| - 1].cpulist;
      assert forall k :: 0 <= k < |front| ==> front[k] == nodes[k];
      cores
  }

  /** What the tool prints: the nodes after both passes, `host_cores`,
      `os_cores`, `pmd_cores`, the cores each pass picked per node,
      `host_mask` (`ovs_dpdk_lcore_mask`), `pmd_mask`
      (`ovs_dpdk_pmd_cpu_mask`) and `non_scheduled_cores` (the value of
      `isolcpus`, `nohz_full` and `rcu_nocbs`). */
  datatype Plan = Plan(
    nodes: seq<NumaNode>,
    hostCores: seq<nat>,
    osCores: seq<nat>,
    pmdCores: seq<nat>,
    osSeeds: seq<seq<nat>>,
    pmdSeeds: seq<seq<nat>>,
    hostMask: string,
    pmdMask: string,
    isolated: string)

  /** Every node goes through both passes. */
  lemma AllNodesShare(nodes: seq<NumaNode>, os: PoolPass, pmd: PoolPass, sibs: Siblings, osCount: int, pmdCount: int)
    requires |os.nodes| == |nodes| && |os.seeds| == |nodes|
    requires |pmd.nodes| == |nodes| && |pmd.seeds| == |nodes|
    requires forall k :: 0 <= k < |nodes| ==> NodeUpdated(nodes[k], os.nodes[k], OsPool, osCount, sibs, os.seeds[k])
    requires forall k :: 0 <= k < |nodes| ==> NodeUpdated(os.nodes[k], pmd.nodes[k], PmdPool, pmdCount, sibs, pmd.seeds[k])
    ensures forall k :: 0 <= k < |nodes| ==> NodeShare(nodes[k], pmd.nodes[k], sibs, osCount, pmdCount, os.seeds[k], pmd.seeds[k])
  {
    forall k | 0 <= k < |nodes|
      ensures NodeShare(nodes[k], pmd.nodes[k], sibs, osCount, pmdCount, os.seeds[k], pmd.seeds[k])
    {
      BothPasses(nodes[k], os.nodes[k], pmd.nodes[k], sibs, osCount, pmdCount, os.seeds[k], pmd.seeds[k]);
    }
  }

  /** Across nodes: with group-shaped siblings and node-local groups no CPU
      is reserved for both the OS and the PMDs. */
  lemma PoolsDisjoint(nodes: seq<NumaNode>, fin: seq<NumaNode>, sibs: Siblings, osCount: int, pmdCount: int, osSeeds: seq<seq<nat>>, pmdSeeds: seq<seq<nat>>)
    requires |fin| == |nodes| && |osSeeds| == |nodes| && |pmdSeeds| == |nodes|
    requires forall k :: 0 <= k < |nodes| ==> NodeShare(nodes[k], fin[k], sibs, osCount, pmdCount, osSeeds[k], pmdSeeds[k])
    requires SiblingGroups(sibs) && NodeLocal(nodes, sibs)
    ensures forall x :: x in Gathered(fin, OsPool) ==> x !in Gathered(fin, PmdPool)
  {
    GatheredMembers(fin, OsPool);
    GatheredMembers(fin, PmdPool);
    forall x | x in Gathered(fin, OsPool)
      ensures x !in Gathered(fin, PmdPool)
    {
      var a :| 0 <= a < |fin| && x in Reserved(fin[a], OsPool);
      assert x in nodes[a].cpulist;
      forall b | 0 <= b < |fin|
        ensures x !in Reserved(fin[b], PmdPool)
      {
        if b != a {
          assert x !in nodes[b].cpulist;
        }
      }
    }
  }

  /** Every CPU the host has is reserved for the OS, reserved for the PMDs,
      or left on its node, once every node's list is sibling-closed. */
  lemma PoolsCover(nodes: seq<NumaNode>, fin: seq<NumaNode>, sibs: Siblings, osCount: int, pmdCount: int, osSeeds: seq<seq<nat>>, pmdSeeds: seq<seq<nat>>)
    requires |fin| == |nodes| && |osSeeds| == |nodes| && |pmdSeeds| == |nodes|
    requires forall k :: 0 <= k < |nodes| ==> NodeShare(nodes[k], fin[k], sibs, osCount, pmdCount, osSeeds[k], pmdSeeds[k])
    requires forall k :: 0 <= k < |nodes| ==> Closed(sibs, nodes[k].cpulist)
    ensures forall x :: x in HostCores(nodes) <==> x in Gathered(fin, OsPool) || x in Gathered(fin, PmdPool) || exists k :: 0 <= k < |fin| && x in fin[k].cpulist
  {
    GatheredMembers(fin, OsPool);
    GatheredMembers(fin, PmdPool);
    forall x
      ensures x in HostCores(nodes) <==> x in Gathered(fin, OsPool) || x in Gathered(fin, PmdPool) || exists k :: 0 <= k < |fin| && x in fin[k].cpulist
    {
      if x in HostCores(nodes) {
        var k :| 0 <= k < |nodes| && x in nodes[k].cpulist;
        assert x in Reserved(fin[k], OsPool) || x in Reserved(fin[k], PmdPool) || x in fin[k].cpulist;
      }
      if x in Gathered(fin, OsPool) {
        var k :| 0 <= k < |fin| && x in Reserved(fin[k], OsPool);
        assert x in nodes[k].cpulist;
      }
      if x in Gathered(fin, PmdPool) {
        var k :| 0 <= k < |fin| && x in Reserved(fin[k], PmdPool);
        assert x in nodes[k].cpulist;
      }
      if exists k :: 0 <= k < |fin| && x in fin[k].cpulist {
        var k :| 0 <= k < |fin| && x in fin[k].cpulist;
        assert x in nodes[k].cpulist;
      }
    }
  }

  /** A pass that picks no seed anywhere reserves nothing. */
  lemma NothingReserved(nodes: seq<NumaNode>, pass: PoolPass, pool: Pool, sibs: Siblings, count: int)
    requires count <= 0 || |nodes| == 0
    requires |pass.nodes| == |nodes| && |pass.seeds| == |nodes|
    requires forall k :: 0 <= k < |nodes| ==> NodeUpdated(nodes[k], pass.nodes[k], pool, count, sibs, pass.seeds[k])
    ensures Gathered(pass.nodes, pool) == []
  {
    GatheredMembers(pass.nodes, pool);
    forall k | 0 <= k < |nodes|
      ensures Reserved(pass.nodes[k], pool) == []
    {
      assert pass.seeds[k] == [];
    }
    var got := Gathered(pass.nodes, pool);
    assert Elements(got) == {};
    NoElements(got);
  }

  /** The isolated list is empty exactly when the OS pool covers the host. */
  lemma NothingIsolated(hostCores: seq<nat>, osCores: seq<nat>)
    ensures ListToRanges(Elements(hostCores) - Elements(osCores)) == "" <==> forall x :: x in hostCores ==> x in osCores
  {
    var free := Elements(hostCores) - Elements(osCores);
    if free == {} {
      forall x | x in hostCores
        ensures x in osCores
      {
        assert x in Elements(hostCores) && x !in free;
      }
    } else {
      var y :| y in free;
      assert y in hostCores && y !in osCores;
    }
  }

  /** The nodes after both passes, the chained OS and PMD pools, and the
      cores each pass picked on each node. */
  datatype Passes = Passes(nodes: seq<NumaNode>, osCores: seq<nat>, pmdCores: seq<nat>, osSeeds: seq<seq<nat>>, pmdSeeds: seq<seq<nat>>)

  /** What both passes leave, `p`, for the nodes as read: every node went
      through the OS pass and then the PMD pass as `NodeShare` states, the
      pools are the nodes' reservations chained in node order, a pass with no
      rounds reserves nothing, and a pass with rounds reserves something
      unless some CPU has an empty sibling list. */
  ghost predicate PoolsOf(nodes: seq<NumaNode>, sibs: Siblings, osPerNode: int, pmdPerNode: int, p: Passes)
  {
    && |p.nodes| == |nodes| && |p.osSeeds| == |nodes| && |p.pmdSeeds| == |nodes|
    && (forall k :: 0 <= k < |nodes| ==> NodeShare(nodes[k], p.nodes[k], sibs, osPerNode, pmdPerNode, p.osSeeds[k], p.pmdSeeds[k]))
    && p.osCores == Gathered(p.nodes, OsPool) && p.pmdCores == Gathered(p.nodes, PmdPool)
    && (osPerNode <= 0 || |nodes| == 0 ==> p.osCores == [])
    && (pmdPerNode <= 0 || |nodes| == 0 ==> p.pmdCores == [])
    && (|nodes| > 0 && !EmptySiblingEntry(nodes, sibs) && osPerNode > 0 ==> p.osCores != [])
    && (|nodes| > 0 && !EmptySiblingEntry(nodes, sibs) && pmdPerNode > 0 ==> p.pmdCores != [])
  }

  /** `os` is a complete OS pass over `nodes`: every node was updated by it. */
  ghost predicate OsPassed(nodes: seq<NumaNode>, sibs: Siblings, osPerNode: int, os: PoolPass)
  {
    && |os.nodes| == |nodes| && |os.seeds| == |nodes|
    && forall k :: 0 <= k < |nodes| ==> NodeUpdated(nodes[k], os.nodes[k], OsPool, osPerNode, sibs, os.seeds[k])
  }

  /** `e` is the exception of lines 171-172: either the OS pass raises it as
      `ReservePool` describes, or some complete OS pass leaves lists on which
      the PMD pass raises it. */
  ghost predicate PassesRaise(e: Fault, nodes: seq<NumaNode>, sibs: Siblings, osPerNode: int, pmdPerNode: int)
  {
    || RaisedFirst(e, nodes, sibs, osPerNode)
    || exists os :: OsPassed(nodes, sibs, osPerNode, os) && RaisedFirst(e, os.nodes, sibs, pmdPerNode)
  }

  /** Lines 171-172 of `main`: the OS pass, then the PMD pass on the nodes it
      updated. A failure in either pass is the tool's exception. */
  method BothPools(nodes: seq<NumaNode>, sibs: Siblings, osPerNode: int, pmdPerNode: int) returns (r: Result<Passes>)
    ensures r.Ok? ==> PoolsOf(nodes, sibs, osPerNode, pmdPerNode, r.value)
    ensures r.Err? ==> PassesRaise(r.error, nodes, sibs, osPerNode, pmdPerNode)
    ensures osPerNode > 0 && (exists k :: 0 <= k < |nodes| && |nodes[k].cpulist| == 0) ==> r.Err?
    ensures Room(nodes, sibs, osPerNode, pmdPerNode) ==> r.Ok?
  {
    RoomForOs(nodes, sibs, osPerNode, pmdPerNode);
    var os := ReservePool(nodes, sibs, osPerNode, OsPool);
    if os.Err? {
      return Err(os.error);
    }
    r := PmdPass(nodes, os.value, sibs, osPerNode, pmdPerNode);
  }

  /** Line 172: the PMD pass over the nodes the OS pass `os` left. */
  method PmdPass(nodes: seq<NumaNode>, os: PoolPass, sibs: Siblings, osPerNode: int, pmdPerNode: int) returns (r: Result<Passes>)
    requires |os.nodes| == |nodes| && |os.seeds| == |nodes|
    requires forall k :: 0 <= k < |nodes| ==> NodeUpdated(nodes[k], os.nodes[k], OsPool, osPerNode, sibs, os.seeds[k])
    requires os.cores == Gathered(os.nodes, OsPool)
    ensures r.Ok? ==> PoolsOf(nodes, sibs, osPerNode, pmdPerNode, r.value)
    ensures r.Err? ==> PassesRaise(r.error, nodes, sibs, osPerNode, pmdPerNode)
    ensures Room(nodes, sibs, osPerNode, pmdPerNode) ==> r.Ok?
  {
    var pmd := ReservePool(os.nodes, sibs, pmdPerNode, PmdPool);
    PmdOutcome(nodes, os, pmd, sibs, osPerNode, pmdPerNode);
    match pmd
    case Err(e) => r := Err(e);
    case Ok(p) => r := Ok(Passes(p.nodes, os.cores, p.cores, os.seeds, p.seeds));
  }

  /** What the PMD pass's outcome `pmd` says about the nodes as read. */
  lemma PmdOutcome(nodes: seq<NumaNode>, os: PoolPass, pmd: Result<PoolPass>, sibs: Siblings, osPerNode: int, pmdPerNode: int)
    requires |os.nodes| == |nodes| && |os.seeds| == |nodes|
    requires forall k :: 0 <= k < |nodes| ==> NodeUpdated(nodes[k], os.nodes[k], OsPool, osPerNode, sibs, os.seeds[k])
    requires os.cores == Gathered(os.nodes, OsPool)
    requires pmd.Ok? ==> |pmd.value.nodes| == |os.nodes| && |pmd.value.seeds| == |os.nodes|
    requires pmd.Ok? ==> forall k :: 0 <= k < |os.nodes| ==> NodeUpdated(os.nodes[k], pmd.value.nodes[k], PmdPool, pmdPerNode, sibs, pmd.value.seeds[k])
    requires pmd.Ok? ==> pmd.value.cores == Gathered(pmd.value.nodes, PmdPool)
    requires pmd.Err? ==> RaisedFirst(pmd.error, os.nodes, sibs, pmdPerNode)
    requires (forall k :: 0 <= k < |os.nodes| ==> Keyed(sibs, os.nodes[k].cpulist) && (pmdPerNode - 1) * Widest(sibs, os.nodes[k].cpulist) < |Elements(os.nodes[k].cpulist)|) ==> pmd.Ok?
    ensures pmd.Ok? ==> PoolsOf(nodes, sibs, osPerNode, pmdPerNode, Passes(pmd.value.nodes, os.cores, pmd.value.cores, os.seeds, pmd.value.seeds))
    ensures pmd.Err? ==> PassesRaise(pmd.error, nodes, sibs, osPerNode, pmdPerNode)
    ensures Room(nodes, sibs, osPerNode, pmdPerNode) ==> pmd.Ok?
  {
    RoomForPmd(nodes, os, sibs, osPerNode, pmdPerNode);
    match pmd
    case Err(e) => assert OsPassed(nodes, sibs, osPerNode, os);
    case Ok(p) => PassesAgree(nodes, os, p, sibs, osPerNode, pmdPerNode);
  }

  /** What the two passes' results say, restated for the pair of them. */
  lemma PassesAgree(nodes: seq<NumaNode>, os: PoolPass, pmd: PoolPass, sibs: Siblings, osPerNode: int, pmdPerNode: int)
    requires |os.nodes| == |nodes| && |os.seeds| == |nodes|
    requires forall k :: 0 <= k < |nodes| ==> NodeUpdated(nodes[k], os.nodes[k], OsPool, osPerNode, sibs, os.seeds[k])
    requires os.cores == Gathered(os.nodes, OsPool)
    requires |pmd.nodes| == |os.nodes| && |pmd.seeds| == |os.nodes|
    requires forall k :: 0 <= k < |os.nodes| ==> NodeUpdated(os.nodes[k], pmd.nodes[k], PmdPool, pmdPerNode, sibs, pmd.seeds[k])
    requires pmd.cores == Gathered(pmd.nodes, PmdPool)
    ensures PoolsOf(nodes, sibs, osPerNode, pmdPerNode, Passes(pmd.nodes, os.cores, pmd.cores, os.seeds, pmd.seeds))
  {
    AllNodesShare(nodes, os, pmd, sibs, osPerNode, pmdPerNode);
    PoolsFilled(nodes, pmd.nodes, sibs, osPerNode, pmdPerNode, os.seeds, pmd.seeds);
    GatheredSamePool(os.nodes, pmd.nodes, OsPool);
    if osPerNode <= 0 || |nodes| == 0 {
      NothingReserved(nodes, os, OsPool, sibs, osPerNode);
    }
    if pmdPerNode <= 0 || |nodes| == 0 {
      NothingReserved(os.nodes, pmd, PmdPool, sibs, pmdPerNode);
    }
  }

  /** `main` from line 171 to the kernel parameters: both passes,
      `get_host_mask` of both pools, and `listToRanges` of the host CPUs not
      reserved for the OS. The first failure is the tool's exception: a node
      that runs dry, a seed without sibling entry, or an empty pool, which
      `get_host_mask` cannot turn into a mask. */
  method PlanFor(nodes: seq<NumaNode>, sibs: Siblings, osPerNode: int, pmdPerNode: int) returns (r: Result<Plan>)
    ensures r.Ok? ==> |r.value.nodes| == |nodes| && |r.value.osSeeds| == |nodes| && |r.value.pmdSeeds| == |nodes|
    ensures r.Ok? ==> forall k :: 0 <= k < |nodes| ==> NodeShare(nodes[k], r.value.nodes[k], sibs, osPerNode, pmdPerNode, r.value.osSeeds[k], r.value.pmdSeeds[k])
    ensures r.Ok? ==> r.value.osCores == Gathered(r.value.nodes, OsPool) && r.value.pmdCores == Gathered(r.value.nodes, PmdPool)
    ensures r.Ok? ==> r.value.hostCores == HostCores(nodes)
    ensures r.Ok? ==> IsMaskText(r.value.hostMask) && forall n: nat :: Bit(HexValue(r.value.hostMask), n) <==> n in r.value.osCores
    ensures r.Ok? ==> IsMaskText(r.value.pmdMask) && forall n: nat :: Bit(HexValue(r.value.pmdMask), n) <==> n in r.value.pmdCores
    ensures r.Ok? ==> r.value.isolated == ListToRanges(Elements(r.value.hostCores) - Elements(r.value.osCores))
    ensures r.Ok? ==> (r.value.isolated == "" <==> forall x :: x in r.value.hostCores ==> x in r.value.osCores)
    ensures r.Ok? && r.value.isolated != "" ==> ParseCpuList(r.value.isolated) == Ok(SortedElements(Elements(r.value.hostCores) - Elements(r.value.osCores)))
    ensures r.Ok? && SiblingGroups(sibs) && NodeLocal(nodes, sibs) ==> forall x :: x in r.value.osCores ==> x !in r.value.pmdCores
    ensures r.Ok? && (forall k :: 0 <= k < |nodes| ==> Closed(sibs, nodes[k].cpulist)) ==>
      forall x :: x in r.value.hostCores <==> x in r.value.osCores || x in r.value.pmdCores || exists k :: 0 <= k < |nodes| && x in r.value.nodes[k].cpulist
    ensures r.Err? ==> PassesRaise(r.error, nodes, sibs, osPerNode, pmdPerNode) || (r.error == InvalidLiteral("") && (osPerNode <= 0 || pmdPerNode <= 0 || |nodes| == 0 || EmptySiblingEntry(nodes, sibs)))
    ensures Room(nodes, sibs, osPerNode, pmdPerNode) && |nodes| > 0 && !EmptySiblingEntry(nodes, sibs) ==> r.Ok?
    ensures osPerNode <= 0 || pmdPerNode <= 0 || |nodes| == 0 ==> r.Err?
    ensures osPerNode > 0 && (exists k :: 0 <= k < |nodes| && |nodes[k].cpulist| == 0) ==> r.Err?
  {
    var passes := BothPools(nodes, sibs, osPerNode, pmdPerNode);
    if passes.Err? {
      return Err(passes.error);
    }
    var p := passes.value;
    var hostMask := HostMask(p.osCores);
    if hostMask.Err? {
      return Err(hostMask.error);
    }
    var pmdMask := HostMask(p.pmdCores);
    if pmdMask.Err? {
      return Err(pmdMask.error);
    }
    var hostCores := HostCores(nodes);
    var isolated := ListToRanges(Elements(hostCores) - Elements(p.osCores));
    PlanFacts(nodes, sibs, osPerNode, pmdPerNode, p);
    r := Ok(Plan(p.nodes, hostCores, p.osCores, p.pmdCores, p.osSeeds, p.pmdSeeds, hostMask.value, pmdMask.value, isolated));
  }

  /** What the printed plan promises once both passes have run: the isolated
      list reads back as the host CPUs outside the OS pool and is empty
      exactly when there are none, and the pools are apart or cover the host
      under the named sibling shapes. */
  lemma PlanFacts(nodes: seq<NumaNode>, sibs: Siblings, osPerNode: int, pmdPerNode: int, p: Passes)
    requires PoolsOf(nodes, sibs, osPerNode, pmdPerNode, p)
    ensures var free := Elements(HostCores(nodes)) - Elements(p.osCores);
      && (ListToRanges(free) == "" <==> forall x :: x in HostCores(nodes) ==> x in p.osCores)
      && (ListToRanges(free) != "" ==> ParseCpuList(ListToRanges(free)) == Ok(SortedElements(free)))
    ensures SiblingGroups(sibs) && NodeLocal(nodes, sibs) ==> forall x :: x in p.osCores ==> x !in p.pmdCores
    ensures (forall k :: 0 <= k < |nodes| ==> Closed(sibs, nodes[k].cpulist)) ==>
      forall x :: x in HostCores(nodes) <==> x in p.osCores || x in p.pmdCores || exists k :: 0 <= k < |nodes| && x in p.nodes[k].cpulist
  {
    IsolatedFacts(HostCores(nodes), p.osCores);
    PlanApart(nodes, sibs, osPerNode, pmdPerNode, p);
    PlanCovers(nodes, sibs, osPerNode, pmdPerNode, p);
  }

  /** Linux-shaped, node-local siblings keep the two pools of a plan apart. */
  lemma PlanApart(nodes: seq<NumaNode>, sibs: Siblings, osPerNode: int, pmdPerNode: int, p: Passes)
    requires PoolsOf(nodes, sibs, osPerNode, pmdPerNode, p)
    ensures SiblingGroups(sibs) && NodeLocal(nodes, sibs) ==> forall x :: x in p.osCores ==> x !in p.pmdCores
  {
    if SiblingGroups(sibs) && NodeLocal(nodes, sibs) {
      PoolsDisjoint(nodes, p.nodes, sibs, osPerNode, pmdPerNode, p.osSeeds, p.pmdSeeds);
    }
  }

  /** With sibling-closed nodes the pools and final lists of a plan cover the
      host CPUs and hold nothing else. */
  lemma PlanCovers(nodes: seq<NumaNode>, sibs: Siblings, osPerNode: int, pmdPerNode: int, p: Passes)
    requires PoolsOf(nodes, sibs, osPerNode, pmdPerNode, p)
    ensures (forall k :: 0 <= k < |nodes| ==> Closed(sibs, nodes[k].cpulist)) ==>
      forall x :: x in HostCores(nodes) <==> x in p.osCores || x in p.pmdCores || exists k :: 0 <= k < |nodes| && x in p.nodes[k].cpulist
  {
    if forall k :: 0 <= k < |nodes| ==> Closed(sibs, nodes[k].cpulist) {
      PoolsCover(nodes, p.nodes, sibs, osPerNode, pmdPerNode, p.osSeeds, p.pmdSeeds);
    }
  }

  /** Line 211 on any host and OS lists: the isolated list reads back as the
      host CPUs outside the OS list and is empty exactly when there are none. */
  lemma IsolatedFacts(host: seq<nat>, os: seq<nat>)
    ensures var free := Elements(host) - Elements(os);
      && (ListToRanges(free) == "" <==> forall x :: x in host ==> x in os)
      && (ListToRanges(free) != "" ==> ParseCpuList(ListToRanges(free)) == Ok(SortedElements(free)))
  {
    var free := Elements(host) - Elements(os);
    if free != {} {
      RoundTrip(free);
    }
    NothingIsolated(host, os);
  }

    /** The PMD pass leaves every node's OS reservation alone, so the chained
      OS lists are the same before and after it. */
  lemma {:induction false} GatheredSamePool(before: seq<NumaNode>, after: seq<NumaNode>, pool: Pool)
    requires |before| == |after|
    requires forall k :: 0 <= k < |before| ==> Reserved(before[k], pool) == Reserved(after[k], pool)
    ensures Gathered(before, pool) == Gathered(after, pool)
    decreases |before|
  {
    if |before| > 0 {
      GatheredSamePool(before[..|before| - 1], after[..|after| - 1], pool);
    }
  }

  // ---------------------------------------------------------------------------
  // why the group shape is needed
  // ---------------------------------------------------------------------------

  /** Sibling lists that are reflexive and symmetric but not groups: CPU 1 is a
      sibling of 0 and of 2, which are not siblings of each other. */
  function Chain(): Siblings
  {
    map[0 := [0, 1], 1 := [0, 1, 2], 2 := [1, 2]]
  }

  /** `Chain` is reflexive and symmetric, is not `SiblingGroups`, and a node
      with CPUs 0-2 admits an OS pass that reserves {0,1} and a PMD pass on
      what is left that reserves {1,2}. */
  lemma ChainShape()
    ensures forall x :: x in Chain() ==> x in Chain()[x]
    ensures forall x, y :: x in Chain() && y in Chain()[x] ==> y in Chain() && x in Chain()[y]
    ensures !SiblingGroups(Chain())
    ensures PassFacts([0, 1, 2], 1, Chain(), [0], [0, 1], [2])
    ensures PassFacts([2], 1, Chain(), [2], [1, 2], [])
  {
    ChainOsPass();
    ChainPmdPass();
    var sibs := Chain();
    assert 0 in sibs && 1 in sibs[0] && Elements(sibs[1]) != Elements(sibs[0]) by {
      assert 2 in Elements(sibs[1]) && 2 !in Elements(sibs[0]);
    }
  }

  /** On CPUs 0-2 with `Chain` siblings, one OS core is 0 and reserves {0,1}. */
  lemma ChainOsPass()
    ensures PassFacts([0, 1, 2], 1, Chain(), [0], [0, 1], [2])
  {
    var sibs := Chain();
    assert Widest(sibs, [0, 1, 2]) >= 3 by {
      assert 1 in [0, 1, 2];
    }
    DistinctCount([0, 1, 2]);
    CoreSiblingsOne(sibs, 0);
    assert [0, 1, 2][0] == 0;
  }

  /** On the CPU 2 left over, one PMD core is 2 and reserves {1,2}. */
  lemma ChainPmdPass()
    ensures PassFacts([2], 1, Chain(), [2], [1, 2], [])
  {
    var sibs := Chain();
    assert Widest(sibs, [2]) >= 2 by {
      assert 2 in [2];
    }
    DistinctCount([2]);
    CoreSiblingsOne(sibs, 2);
    assert [2][0] == 2;
  }

  /** Without `SiblingGroups` the two pools can share a CPU. On a node with
      CPUs 0-2 and the `Chain` siblings, every OS pass of one core takes 0 and
      its siblings {0,1} and leaves [2]; every PMD pass of one core on that
      list takes 2 with siblings {1,2}; so CPU 1 is in both reservations. */
  lemma OverlapWithoutGroups(osSeeds: seq<nat>, osCores: seq<nat>, left: seq<nat>, pmdSeeds: seq<nat>, pmdCores: seq<nat>, rest: seq<nat>)
    requires PassFacts([0, 1, 2], 1, Chain(), osSeeds, osCores, left)
    requires PassFacts(left, 1, Chain(), pmdSeeds, pmdCores, rest)
    ensures osSeeds == [0] && osCores == [0, 1] && left == [2]
    ensures pmdSeeds == [2] && pmdCores == [1, 2] && rest == []
    ensures 1 in osCores && 1 in pmdCores
  {
    var sibs := Chain();
    assert osSeeds == [osSeeds[0]];
    assert osSeeds[0] == 0 by {
      assert 0 in Elements([0, 1, 2]);
    }
    CoreSiblingsOne(sibs, 0);
    OnlyTwo(left);
    assert pmdSeeds == [pmdSeeds[0]];
    assert pmdSeeds[0] == 2;
    CoreSiblingsOne(sibs, 2);
    assert Elements(rest) == {};
    NoElements(rest);
  }

  /** A duplicate-free list whose members are exactly 2 is [2]. */
  lemma OnlyTwo(xs: seq<nat>)
    requires NoDuplicates(xs) && forall x :: x in xs <==> x == 2
    ensures xs == [2]
  {
    assert 2 in xs;
    if |xs| > 1 {
      assert xs[0] == 2 && xs[1] == 2 by {
        assert xs[0] in xs && xs[1] in xs;
      }
      assert false;
    }
  }
}

=== FILE: reservation.dfy ===
/** The reservation engine of topology.py: `get_core_siblings` (lines 76-81)
    and the two per-node passes `get_host_reserved_cores` (83-101) and
    `get_pmd_reserved_cores` (103-121), which share one algorithm. On every
    node the pass takes the lowest CPU of the sorted list as a seed, reserves
    the seed's thread siblings, removes them from the node's list, and repeats
    `count` times; after the first round the list is `list(set(...))`, whose
    order Python leaves open, so later seeds are some remaining CPU. */
module Reservation {
  import opened Faults
  import opened Ordering

  /** `topology['cpus']['cpuN']['thread_siblings_list']`, keyed by `N`. */
  type Siblings = map<nat, seq<nat>>

  /** Every id of `cores` has a sibling entry. */
  predicate Keyed(sibs: Siblings, cores: seq<nat>)
  {
    forall i :: 0 <= i < |cores| ==> cores[i] in sibs
  }

  /** `get_core_siblings(topology, cores)`: the sibling lists of `cores`
      concatenated in order. It fails exactly when some id has no entry, and
      then names the first such id. */
  function CoreSiblings(sibs: Siblings, cores: seq<nat>): (r: Result<seq<nat>>)
    ensures r.Ok? <==> Keyed(sibs, cores)
    ensures r.Err? ==> exists i :: 0 <= i < |cores| && cores[i] !in sibs && r.error == MissingCpu(cores[i]) && forall j :: 0 <= j < i ==> cores[j] in sibs
  {
    if |cores| == 0 then Ok([])
    else if cores[0] !in sibs then Err(MissingCpu(cores[0]))
    else
      var tail := CoreSiblings(sibs, cores[1..]);
      assert forall i :: 0 < i < |cores| ==> cores[i] == cores[1..][i - 1];
      match tail
      case Err(e) =>
        assert exists i :: 0 < i < |cores| && cores[i] !in sibs && e == MissingCpu(cores[i]) && forall j :: 0 <= j < i ==> cores[j] in sibs by {
          var k :| 0 <= k < |cores[1..]| && cores[1..][k] !in sibs && e == MissingCpu(cores[1..][k]) && forall j :: 0 <= j < k ==> cores[1..][j] in sibs;
          assert forall j :: 0 < j < k + 1 ==> cores[j] in sibs;
        }
        Err(e)
      case Ok(rest) => Ok(sibs[cores[0]] + rest)
  }

  /** The lookup holds exactly the ids found in some core's sibling list. */
  lemma {:induction false} CoreSiblingsMembers(sibs: Siblings, cores: seq<nat>)
    requires Keyed(sibs, cores)
    ensures forall x :: x in CoreSiblings(sibs, cores).value <==> exists i :: 0 <= i < |cores| && x in sibs[cores[i]]
    decreases |cores|
  {
    if |cores| > 0 {
      assert Keyed(sibs, cores[1..]) by {
        assert forall i :: 0 <= i < |cores[1..]| ==> cores[1..][i] == cores[i + 1];
      }
      CoreSiblingsMembers(sibs, cores[1..]);
      var rest := CoreSiblings(sibs, cores[1..]).value;
      forall x
        ensures x in sibs[cores[0]] + rest <==> exists i :: 0 <= i < |cores| && x in sibs[cores[i]]
      {
        if x in rest {
          var j :| 0 <= j < |cores[1..]| && x in sibs[cores[1..][j]];
          assert x in sibs[cores[j + 1]];
        }
        if exists i :: 0 <= i < |cores| && x in sibs[cores[i]] {
          var i :| 0 <= i < |cores| && x in sibs[cores[i]];
          if i > 0 {
            assert x in sibs[cores[1..][i - 1]];
          }
        }
      }
    }
  }

  /** Looking up two lists of cores one after the other is looking up their
      concatenation. */
  lemma {:induction false} CoreSiblingsAppend(sibs: Siblings, a: seq<nat>, b: seq<nat>)
    requires Keyed(sibs, a) && Keyed(sibs, b)
    ensures CoreSiblings(sibs, a + b) == Ok(CoreSiblings(sibs, a).value + CoreSiblings(sibs, b).value)
    decreases |a|
  {
    if |a| == 0 {
      assert a + b == b;
      assert [] + CoreSiblings(sibs, b).value == CoreSiblings(sibs, b).value;
    } else {
      assert (a + b)[0] == a[0];
      assert (a + b)[1..] == a[1..] + b;
      assert Keyed(sibs, a[1..]) by {
        assert forall i :: 0 <= i < |a[1..]| ==> a[1..][i] == a[i + 1];
      }
      CoreSiblingsAppend(sibs, a[1..], b);
      var rest := CoreSiblings(sibs, a[1..]).value;
      assert sibs[a[0]] + (rest + CoreSiblings(sibs, b).value) == (sibs[a[0]] + rest) + CoreSiblings(sibs, b).value;
    }
  }

  /** The sibling lookup of a single core is its own sibling list. */
  lemma CoreSiblingsOne(sibs: Siblings, c: nat)
    requires c in sibs
    ensures CoreSiblings(sibs, [c]) == Ok(sibs[c])
  {
    assert [c][1..] == [];
    assert sibs[c] + [] == sibs[c];
  }

  /** The longest sibling list among the keyed ids of `xs`. */
  function Widest(sibs: Siblings, xs: seq<nat>): (w: nat)
    ensures forall x :: x in xs && x in sibs ==> |sibs[x]| <= w
  {
    if |xs| == 0 then 0
    else
      var rest := Widest(sibs, xs[1..]);
      var here := if xs[0] in sibs then |sibs[xs[0]]| else 0;
      assert forall x :: x in xs ==> x == xs[0] || x in xs[1..];
      if here > rest then here else rest
  }

  /** Every keyed id of `xs` is its own sibling, as in a Linux
      `thread_siblings_list`. */
  predicate SelfSiblings(sibs: Siblings, xs: seq<nat>)
  {
    forall x :: x in xs && x in sibs ==> x in sibs[x]
  }

  /** What one pass leaves for a node whose list was `cpulist`: `seeds` are the
      cores picked (`_os_cores` / `_pmd_cores`), `reserved` is their sibling
      lists concatenated (the node's `os_cores` / `pmd_cores`), and `remaining`
      is the list stored back as the node's `cpulist`. The first seed is the
      lowest CPU; every seed lies outside the sibling lists of the earlier ones;
      a CPU remains exactly when it was on the node and is not reserved; and
      each seed takes at most one widest sibling list's worth of CPUs. */
  ghost predicate PassFacts(cpulist: seq<nat>, count: int, sibs: Siblings, seeds: seq<nat>, reserved: seq<nat>, remaining: seq<nat>)
  {
    && |seeds| == (if count > 0 then count else 0)
    && (count > 0 ==> IsMin(seeds[0], cpulist))
    && (forall i :: 0 <= i < |seeds| ==> seeds[i] in cpulist)
    && Keyed(sibs, seeds)
    && CoreSiblings(sibs, seeds) == Ok(reserved)
    && (forall i, j :: 0 <= i < j < |seeds| ==> seeds[j] !in sibs[seeds[i]])
    && (forall x :: x in remaining <==> x in cpulist && x !in reserved)
    && (count <= 0 ==> remaining == Sort(cpulist))
    && (count > 0 ==> NoDuplicates(remaining))
    && (Keyed(sibs, cpulist) ==> |Elements(remaining)| + |seeds| * Widest(sibs, cpulist) >= |Elements(cpulist)|)
  }

  datatype NodePass = NodePass(seeds: seq<nat>, reserved: seq<nat>, remaining: seq<nat>)

  /** `|A| <= |B|` for `A <= B`. */
  lemma SubsetBound(a: set<nat>, b: set<nat>)
    requires a <= b
    ensures |a| <= |b|
  {
    assert b == a + (b - a);
  }

  lemma MulSucc(i: int, w: nat)
    ensures (i + 1) * w == i * w + w
  {
  }

  lemma MulMono(i: int, j: int, w: nat)
    requires i <= j
    ensures i * w <= j * w
  {
  }

  /** The loop invariant of a pass on one node after `i` rounds: `seeds` picked
      so far, `reserved` their sibling lists, `list` the CPUs left. `spent`
      bounds, through the widest sibling list, how many CPUs the rounds can
      have taken. */
  ghost predicate Progress(cpulist: seq<nat>, count: int, sibs: Siblings, i: int, spent: int, seeds: seq<nat>, reserved: seq<nat>, list: seq<nat>)
  {
    && 0 <= i && (count > 0 ==> i <= count) && (count <= 0 ==> i == 0)
    && spent == i * Widest(sibs, cpulist)
    && |seeds| == i
    && Keyed(sibs, seeds)
    && CoreSiblings(sibs, seeds) == Ok(reserved)
    && (forall k :: 0 <= k < i ==> seeds[k] in cpulist)
    && (forall k, j :: 0 <= k < j < i ==> seeds[j] !in sibs[seeds[k]])
    && (forall k, x :: 0 <= k < i && x in sibs[seeds[k]] ==> x in reserved)
    && (i > 0 ==> IsMin(seeds[0], cpulist))
    && (forall x :: x in list <==> x in cpulist && x !in reserved)
    && (i == 0 ==> list == Sort(cpulist) && reserved == [])
    && (i > 0 ==> NoDuplicates(list))
    && (Keyed(sibs, cpulist) ==> |Elements(list)| + spent >= |Elements(cpulist)|)
    && (SelfSiblings(sibs, cpulist) ==> |Elements(list)| + i <= |Elements(cpulist)|)
  }

  lemma ProgressStart(cpulist: seq<nat>, count: int, sibs: Siblings)
    ensures Progress(cpulist, count, sibs, 0, 0, [], [], Sort(cpulist))
  {
    var list := Sort(cpulist);
    SortElements(cpulist);
    assert forall x :: x in list <==> x in Elements(list);
    assert forall x :: x in cpulist <==> x in Elements(cpulist);
  }

  /** Taking `group` out of `list` leaves fewer CPUs, but no fewer than
      `|group|` fewer. */
  lemma RemoveGroup(list: seq<nat>, group: seq<nat>, next: seq<nat>)
    requires Enumerates(next, Elements(list) - Elements(group))
    ensures |Elements(next)| >= |Elements(list)| - |group|
    ensures forall c :: c in list && c in group ==> |Elements(next)| < |Elements(list)|
  {
    DifferenceBound(Elements(list), Elements(group));
    ElementsBound(group);
    forall c | c in list && c in group
      ensures |Elements(next)| < |Elements(list)|
    {
      assert c in Elements(list);
      SubsetBound(Elements(next), Elements(list) - {c});
    }
  }

  /** One round keeps the invariant: the lowest-placed CPU of `list` becomes a
      seed and its sibling list is taken out. */
  lemma ProgressStep(cpulist: seq<nat>, count: int, sibs: Siblings, i: int, spent: int, seeds: seq<nat>, reserved: seq<nat>, list: seq<nat>, next: seq<nat>)
    requires Progress(cpulist, count, sibs, i, spent, seeds, reserved, list)
    requires i < count && |list| > 0 && list[0] in sibs
    requires Enumerates(next, Elements(list) - Elements(sibs[list[0]]))
    ensures Progress(cpulist, count, sibs, i + 1, spent + Widest(sibs, cpulist), seeds + [list[0]], reserved + sibs[list[0]], next)
  {
    var seed := list[0];
    var group := sibs[seed];
    var seeds' := seeds + [seed];
    var reserved' := reserved + group;
    CoreSiblingsOne(sibs, seed);
    CoreSiblingsAppend(sibs, seeds, [seed]);
    RemoveGroup(list, group, next);
    assert seed in cpulist && seed !in reserved;
    if i == 0 {
      SortHeadIsMin(cpulist);
    }
    NextMembers(cpulist, reserved, list, group, next);
    SeedsSnoc(sibs, seeds, reserved, seed);
    MulSucc(i, Widest(sibs, cpulist));
    if Keyed(sibs, cpulist) {
      assert |group| <= Widest(sibs, cpulist);
    }
    if SelfSiblings(sibs, cpulist) {
      assert seed in group;
    }
  }

  /** The CPUs left after a round are those on the node and in no reserved
      list, the new group included. */
  lemma NextMembers(cpulist: seq<nat>, reserved: seq<nat>, list: seq<nat>, group: seq<nat>, next: seq<nat>)
    requires forall x :: x in list <==> x in cpulist && x !in reserved
    requires Enumerates(next, Elements(list) - Elements(group))
    ensures forall x :: x in next <==> x in cpulist && x !in reserved + group
  {
    forall x
      ensures x in next <==> x in cpulist && x !in reserved + group
    {
      assert x in next <==> x in Elements(next);
      assert x in list <==> x in Elements(list);
      assert x in group <==> x in Elements(group);
    }
  }

  /** A new seed outside every reserved list keeps the seeds apart from the
      earlier seeds' sibling lists, and the reserved list covering them. */
  lemma SeedsSnoc(sibs: Siblings, seeds: seq<nat>, reserved: seq<nat>, seed: nat)
    requires Keyed(sibs, seeds) && seed in sibs && seed !in reserved
    requires forall k, x :: 0 <= k < |seeds| && x in sibs[seeds[k]] ==> x in reserved
    requires forall k, j :: 0 <= k < j < |seeds| ==> seeds[j] !in sibs[seeds[k]]
    ensures var seeds' := seeds + [seed];
      forall k, x :: 0 <= k < |seeds'| && x in sibs[seeds'[k]] ==> x in reserved + sibs[seed]
    ensures var seeds' := seeds + [seed];
      forall k, j :: 0 <= k < j < |seeds'| ==> seeds'[j] !in sibs[seeds'[k]]
  {
    var seeds' := seeds + [seed];
    forall k, x | 0 <= k < |seeds'| && x in sibs[seeds'[k]]
      ensures x in reserved + sibs[seed]
    {
      if k < |seeds| {
        assert seeds'[k] == seeds[k];
      }
    }
    forall k, j | 0 <= k < j < |seeds'|
      ensures seeds'[j] !in sibs[seeds'[k]]
    {
      assert seeds'[k] == seeds[k];
      if j < |seeds| {
        assert seeds'[j] == seeds[j];
      }
    }
  }

  /** Under the sufficient condition a round never finds the list empty. */
  lemma ProgressRoom(cpulist: seq<nat>, count: int, sibs: Siblings, i: int, spent: int, seeds: seq<nat>, reserved: seq<nat>, list: seq<nat>)
    requires Progress(cpulist, count, sibs, i, spent, seeds, reserved, list)
    requires i < count
    requires Keyed(sibs, cpulist) && (count - 1) * Widest(sibs, cpulist) < |Elements(cpulist)|
    ensures |list| > 0
  {
    MulMono(i, count - 1, Widest(sibs, cpulist));
    NoElements(list);
  }

  /** Once `count` rounds have run, the invariant is what the pass promises. */
  lemma ProgressEnd(cpulist: seq<nat>, count: int, sibs: Siblings, i: int, spent: int, seeds: seq<nat>, reserved: seq<nat>, list: seq<nat>)
    requires Progress(cpulist, count, sibs, i, spent, seeds, reserved, list)
    requires i >= count
    ensures PassFacts(cpulist, count, sibs, seeds, reserved, list)
    ensures !(SelfSiblings(sibs, cpulist) && count > |Elements(cpulist)|)
    ensures count > 0 ==> |cpulist| > 0
  {
  }

  /** A round on `list` raises `e`: `cpulist[0]` of an empty list raises
      IndexError (`NoCpuLeft`), and a head without sibling entry raises
      KeyError (`MissingCpu`). */
  predicate Stuck(name: string, list: seq<nat>, sibs: Siblings, e: Fault)
  {
    if |list| == 0 then e == NoCpuLeft(name) else list[0] !in sibs && e == MissingCpu(list[0])
  }

  /** Some run of the per-node loop on `cpulist` reaches a round, before the
      `count`-th, that raises `e`. */
  ghost predicate StopsWith(name: string, cpulist: seq<nat>, count: int, sibs: Siblings, e: Fault)
  {
    exists i, spent, seeds, reserved, list :: i < count && Progress(cpulist, count, sibs, i, spent, seeds, reserved, list) && Stuck(name, list, sibs, e)
  }

  /** One node of a pass: the body of the `for node` loop at topology.py:88-99
      (and 108-119). It fails with `NoCpuLeft` when the list runs dry before
      `count` seeds are taken, and with `MissingCpu` when a seed has no sibling
      entry. It cannot run dry while every id is keyed and `count - 1` widest
      sibling lists leave a CPU over; it must run dry when every CPU is its own
      sibling and `count` exceeds the number of CPUs. */
  method ReserveOnNode(name: string, cpulist: seq<nat>, count: int, sibs: Siblings) returns (r: Result<NodePass>)
    ensures r.Ok? ==> PassFacts(cpulist, count, sibs, r.value.seeds, r.value.reserved, r.value.remaining)
    ensures r.Err? ==> r.error == NoCpuLeft(name) || (r.error.MissingCpu? && r.error.cpu in cpulist && r.error.cpu !in sibs)
    ensures r.Err? ==> StopsWith(name, cpulist, count, sibs, r.error)
    ensures count > 0 && |cpulist| == 0 ==> r == Err(NoCpuLeft(name))
    ensures Keyed(sibs, cpulist) && (count - 1) * Widest(sibs, cpulist) < |Elements(cpulist)| ==> r.Ok?
    ensures SelfSiblings(sibs, cpulist) && count > |Elements(cpulist)| ==> r.Err?
  {
    var list := Sort(cpulist);
    var seeds: seq<nat> := [];
    var reserved: seq<nat> := [];
    var i := 0;
    ghost var spent := 0;
    ProgressStart(cpulist, count, sibs);
    while i < count
      invariant Progress(cpulist, count, sibs, i, spent, seeds, reserved, list)
    {
      var step := TakeSeed(name, cpulist, count, sibs, i, spent, seeds, reserved, list);
      if step.Err? {
        assert i < count && Progress(cpulist, count, sibs, i, spent, seeds, reserved, list) && Stuck(name, list, sibs, step.error);
        return Err(step.error);
      }
      seeds := step.value.seeds;
      reserved := step.value.reserved;
      list := step.value.remaining;
      i := i + 1;
      spent := spent + Widest(sibs, cpulist);
    }
    ProgressEnd(cpulist, count, sibs, i, spent, seeds, reserved, list);
    r := Ok(NodePass(seeds, reserved, list));
  }

  /** One round of the `while i < count` loop (topology.py:92-96): the head of
      the list becomes a seed, and the list becomes the set of CPUs left once
      the seed's sibling list is taken out, in no particular order. It fails
      when the list is empty (`cpulist[0]` raises IndexError) or the seed has
      no sibling entry (KeyError). */
  method TakeSeed(name: string, cpulist: seq<nat>, count: int, sibs: Siblings, ghost i: int, ghost spent: int, seeds: seq<nat>, reserved: seq<nat>, list: seq<nat>) returns (r: Result<NodePass>)
    requires Progress(cpulist, count, sibs, i, spent, seeds, reserved, list)
    requires i < count
    ensures r.Ok? ==> Progress(cpulist, count, sibs, i + 1, spent + Widest(sibs, cpulist), r.value.seeds, r.value.reserved, r.value.remaining)
    ensures r.Ok? <==> |list| > 0 && list[0] in sibs
    ensures r.Err? ==> Stuck(name, list, sibs, r.error)
    ensures r.Ok? ==> r.value.seeds == seeds + [list[0]] && r.value.reserved == reserved + sibs[list[0]]
    ensures r.Ok? ==> Enumerates(r.value.remaining, Elements(list) - Elements(sibs[list[0]]))
    ensures |cpulist| == 0 ==> r == Err(NoCpuLeft(name))
    ensures r.Err? ==> r.error == NoCpuLeft(name) || (r.error.MissingCpu? && r.error.cpu in cpulist && r.error.cpu !in sibs)
    ensures Keyed(sibs, cpulist) && (count - 1) * Widest(sibs, cpulist) < |Elements(cpulist)| ==> r.Ok?
  {
    if Keyed(sibs, cpulist) && (count - 1) * Widest(sibs, cpulist) < |Elements(cpulist)| {
      ProgressRoom(cpulist, count, sibs, i, spent, seeds, reserved, list);
    }
    if |list| == 0 {
      return Err(NoCpuLeft(name));
    }
    assert list[0] in list;
    var seed := list[0];
    assert seed in cpulist;
    match CoreSiblings(sibs, [seed])
    case Err(e) =>
      return Err(e);
    case Ok(group) =>
      CoreSiblingsOne(sibs, seed);
      var left := Elements(list) - Elements(group);
      ghost var ordered := SortedElements(left);
      IncreasingEnumerates(ordered);
      var next :| Enumerates(next, left);
      ProgressStep(cpulist, count, sibs, i, spent, seeds, reserved, list, next);
      r := Ok(NodePass(seeds + [seed], reserved + group, next));
  }

  /** The two reservation pools a node carries. */
  datatype Pool = OsPool | PmdPool

  /** One entry of `topology['nodes']`. A pool not yet reserved is empty. */
  datatype NumaNode = NumaNode(name: string, cpulist: seq<nat>, osCores: seq<nat>, pmdCores: seq<nat>)

  /** The node's `os_cores` or `pmd_cores`. */
  function Reserved(node: NumaNode, pool: Pool): seq<nat>
  {
    match pool
    case OsPool => node.osCores
    case PmdPool => node.pmdCores
  }

  /** `itertools.chain` over the nodes' lists of one pool, in node order. */
  function Gathered(nodes: seq<NumaNode>, pool: Pool): (r: seq<nat>)
    ensures forall k, x :: 0 <= k < |nodes| && x in Reserved(nodes[k], pool) ==> x in r
  {
    if |nodes| == 0 then []
    else Gathered(nodes[..|nodes| - 1], pool) + Reserved(nodes[|nodes| - 1], pool)
  }

  /** A CPU is in the chained lists exactly when it is in some node's list. */
  lemma {:induction false} GatheredMembers(nodes: seq<NumaNode>, pool: Pool)
    ensures forall x :: x in Gathered(nodes, pool) <==> exists k :: 0 <= k < |nodes| && x in Reserved(nodes[k], pool)
    decreases |nodes|
  {
    if |nodes| > 0 {
      var front := nodes[..|nodes| - 1];
      GatheredMembers(front, pool);
      forall x
        ensures x in Gathered(nodes, pool) <==> exists k :: 0 <= k < |nodes| && x in Reserved(nodes[k], pool)
      {
        if exists k :: 0 <= k < |nodes| && x in Reserved(nodes[k], pool) {
          var k :| 0 <= k < |nodes| && x in Reserved(nodes[k], pool);
          if k < |front| {
            assert Reserved(front[k], pool) == Reserved(nodes[k], pool);
          }
        }
        if x in Gathered(front, pool) {
          var k :| 0 <= k < |front| && x in Reserved(front[k], pool);
          assert front[k] == nodes[k];
        }
      }
    }
  }

  /** `after` is `before` once a pass has stored the remaining list and the
      reserved pool on it, with `seeds` as the cores it picked. */
  ghost predicate NodeUpdated(before: NumaNode, after: NumaNode, pool: Pool, count: int, sibs: Siblings, seeds: seq<nat>)
  {
    && after.name == before.name
    && (pool == OsPool ==> after.pmdCores == before.pmdCores)
    && (pool == PmdPool ==> after.osCores == before.osCores)
    && PassFacts(before.cpulist, count, sibs, seeds, Reserved(after, pool), after.cpulist)
  }

  /** The node once a pass has stored `remaining` as its `cpulist` and
      `reserved` as its pool. */
  function Store(node: NumaNode, pool: Pool, pass: NodePass): (r: NumaNode)
    ensures r.name == node.name && r.cpulist == pass.remaining && Reserved(r, pool) == pass.reserved
    ensures pool == OsPool ==> r.pmdCores == node.pmdCores
    ensures pool == PmdPool ==> r.osCores == node.osCores
  {
    match pool
    case OsPool => node.(cpulist := pass.remaining, osCores := pass.reserved)
    case PmdPool => node.(cpulist := pass.remaining, pmdCores := pass.reserved)
  }

  lemma StoreUpdates(node: NumaNode, pool: Pool, pass: NodePass, count: int, sibs: Siblings)
    requires PassFacts(node.cpulist, count, sibs, pass.seeds, pass.reserved, pass.remaining)
    ensures NodeUpdated(node, Store(node, pool, pass), pool, count, sibs, pass.seeds)
    ensures Reserved(Store(node, pool, pass), pool) == pass.reserved
  {
  }

  /** Appending one more updated node keeps every earlier node updated. */
  lemma UpdatedSnoc(nodes: seq<NumaNode>, done: seq<NumaNode>, seeds: seq<seq<nat>>, updated: NumaNode, picked: seq<nat>, pool: Pool, count: int, sibs: Siblings)
    requires |done| == |seeds| < |nodes|
    requires forall k :: 0 <= k < |done| ==> NodeUpdated(nodes[k], done[k], pool, count, sibs, seeds[k])
    requires NodeUpdated(nodes[|done|], updated, pool, count, sibs, picked)
    ensures forall k :: 0 <= k < |done| + 1 ==> NodeUpdated(nodes[k], (done + [updated])[k], pool, count, sibs, (seeds + [picked])[k])
  {
    forall k | 0 <= k < |done| + 1
      ensures NodeUpdated(nodes[k], (done + [updated])[k], pool, count, sibs, (seeds + [picked])[k])
    {
      if k < |done| {
        assert (done + [updated])[k] == done[k] && (seeds + [picked])[k] == seeds[k];
      }
    }
  }

  /** The result of a whole pass: the updated nodes, the returned list of all
      reserved CPUs, and the seeds picked on each node. */
  datatype PoolPass = PoolPass(nodes: seq<NumaNode>, cores: seq<nat>, seeds: seq<seq<nat>>)

  /** `e` is an error a pass over `nodes` can raise: one of them runs dry, or
      one of its CPUs has no sibling entry. */
  predicate RaisedBy(e: Fault, nodes: seq<NumaNode>, sibs: Siblings)
  {
    exists k :: 0 <= k < |nodes| && RaisedOn(e, nodes[k], sibs)
  }

  /** `e` is an error the pass on `node` can raise. */
  predicate RaisedOn(e: Fault, node: NumaNode, sibs: Siblings)
  {
    e == NoCpuLeft(node.name) || (e.MissingCpu? && e.cpu in node.cpulist && e.cpu !in sibs)
  }

  /** Some run of the per-node loop on `cpulist` completes. */
  ghost predicate Passable(cpulist: seq<nat>, count: int, sibs: Siblings)
  {
    exists seeds, reserved, remaining :: PassFacts(cpulist, count, sibs, seeds, reserved, remaining)
  }

  /** `e` is raised by some run of the loop on some node, and every node before
      it admits a complete run. */
  ghost predicate RaisedFirst(e: Fault, nodes: seq<NumaNode>, sibs: Siblings, count: int)
  {
    exists k :: 0 <= k < |nodes| && StopsWith(nodes[k].name, nodes[k].cpulist, count, sibs, e) && forall j :: 0 <= j < k ==> Passable(nodes[j].cpulist, count, sibs)
  }

  /** Nodes already updated by the pass each completed it. */
  lemma PassableBefore(nodes: seq<NumaNode>, done: seq<NumaNode>, seeds: seq<seq<nat>>, pool: Pool, count: int, sibs: Siblings)
    requires |done| == |seeds| <= |nodes|
    requires forall k :: 0 <= k < |done| ==> NodeUpdated(nodes[k], done[k], pool, count, sibs, seeds[k])
    ensures forall j :: 0 <= j < |done| ==> Passable(nodes[j].cpulist, count, sibs)
  {
    forall j | 0 <= j < |done|
      ensures Passable(nodes[j].cpulist, count, sibs)
    {
      assert NodeUpdated(nodes[j], done[j], pool, count, sibs, seeds[j]);
      assert PassFacts(nodes[j].cpulist, count, sibs, seeds[j], Reserved(done[j], pool), done[j].cpulist);
    }
  }

  /** `get_host_reserved_cores` (pool `OsPool`, `count` = `os_cores_per_node`)
      and `get_pmd_reserved_cores` (pool `PmdPool`, `count` =
      `pmd_cores_per_node`): every node is updated in order, and the result
      is the nodes' reserved lists chained together. The first node that
      fails ends the pass with its error. */
  method ReservePool(nodes: seq<NumaNode>, sibs: Siblings, count: int, pool: Pool) returns (r: Result<PoolPass>)
    ensures r.Ok? ==> |r.value.nodes| == |nodes| && |r.value.seeds| == |nodes|
    ensures r.Ok? ==> forall k :: 0 <= k < |nodes| ==> NodeUpdated(nodes[k], r.value.nodes[k], pool, count, sibs, r.value.seeds[k])
    ensures r.Ok? ==> r.value.cores == Gathered(r.value.nodes, pool)
    ensures r.Err? ==> RaisedBy(r.error, nodes, sibs)
    ensures r.Err? ==> RaisedFirst(r.error, nodes, sibs, count)
    ensures count > 0 && (exists k :: 0 <= k < |nodes| && |nodes[k].cpulist| == 0) ==> r.Err?
    ensures (forall k :: 0 <= k < |nodes| ==> Keyed(sibs, nodes[k].cpulist) && (count - 1) * Widest(sibs, nodes[k].cpulist) < |Elements(nodes[k].cpulist)|) ==> r.Ok?
  {
    var done: seq<NumaNode> := [];
    var cores: seq<nat> := [];
    var seeds: seq<seq<nat>> := [];
    var i := 0;
    while i < |nodes|
      invariant 0 <= i <= |nodes|
      invariant |done| == i && |seeds| == i
      invariant forall k :: 0 <= k < i ==> NodeUpdated(nodes[k], done[k], pool, count, sibs, seeds[k])
      invariant cores == Gathered(done, pool)
      invariant forall k :: 0 <= k < i ==> count <= 0 || |nodes[k].cpulist| > 0
    {
      var node := nodes[i];
      var pass := ReserveOnNode(node.name, node.cpulist, count, sibs);
      match pass
      case Err(e) =>
        assert RaisedOn(e, nodes[i], sibs);
        assert StopsWith(nodes[i].name, nodes[i].cpulist, count, sibs, e);
        PassableBefore(nodes, done, seeds, pool, count, sibs);
        return Err(e);
      case Ok(p) =>
        var updated := Store(node, pool, p);
        StoreUpdates(node, pool, p, count, sibs);
        UpdatedSnoc(nodes, done, seeds, updated, p.seeds, pool, count, sibs);
        assert (done + [updated])[..i] == done;
        done := done + [updated];
        cores := cores + p.reserved;
        seeds := seeds + [p.seeds];
        i := i + 1;
    }
    r := Ok(PoolPass(done, cores, seeds));
  }
}

=== FILE: text.dfy ===
/** The Python 2 string built-ins the tool relies on: `sep.join`, `s.split(sep)`,
    `str(n)` for a natural number, `int(s)` in base 10 and `format(n, '02x')`. */
module Text {
  import opened Faults

  // ---------------------------------------------------------------------------
  // join and split on a one-character separator
  // ---------------------------------------------------------------------------

  /** `sep.join(parts)` */
  function Join(parts: seq<string>, sep: char): (r: string)
    ensures (forall i :: 0 <= i < |parts| ==> sep !in parts[i]) ==> (sep in r <==> |parts| > 1)
  {
    if |parts| == 0 then ""
    else if |parts| == 1 then parts[0]
    else parts[0] + [sep] + Join(parts[1..], sep)
  }

  /** `s.split(sep)`: never empty (`"".split(",") == [""]`), no part contains the
      separator, and a separator in `s` means at least two parts. */
  function Split(s: string, sep: char): (parts: seq<string>)
    ensures |parts| >= 1
    ensures forall i :: 0 <= i < |parts| ==> sep !in parts[i]
    ensures sep in s ==> |parts| >= 2
  {
    if |s| == 0 then [""]
    else
      var rest := Split(s[1..], sep);
      if s[0] == sep then
        assert s == [sep] + s[1..];
        [""] + rest
      else
        assert sep in s ==> sep in s[1..] by {
          if sep in s {
            var i :| 0 <= i < |s| && s[i] == sep;
            assert s[1..][i - 1] == sep;
          }
        }
        [[s[0]] + rest[0]] + rest[1..]
  }

  /** Joining the parts of a split gives back the string. */
  lemma {:induction false} JoinSplit(s: string, sep: char)
    ensures Join(Split(s, sep), sep) == s
    decreases |s|
  {
    if |s| > 0 {
      JoinSplit(s[1..], sep);
      var rest := Split(s[1..], sep);
      assert s == [s[0]] + s[1..];
      if s[0] != sep {
        var parts := [[s[0]] + rest[0]] + rest[1..];
        assert |rest| >= 2 ==> Join(rest, sep) == rest[0] + [sep] + Join(rest[1..], sep);
        assert parts[1..] == rest[1..];
      }
    }
  }

  /** Splitting a string whose first part `a` is free of the separator. */
  lemma {:induction false} SplitOfPrefix(a: string, t: string, sep: char)
    requires sep !in a
    ensures Split(a + t, sep) == [a + Split(t, sep)[0]] + Split(t, sep)[1..]
    decreases |a|
  {
    if |a| == 0 {
      assert a + t == t;
      assert a + Split(t, sep)[0] == Split(t, sep)[0];
      assert Split(t, sep) == [Split(t, sep)[0]] + Split(t, sep)[1..];
    } else {
      assert (a + t)[1..] == a[1..] + t;
      assert (a + t)[0] == a[0];
      SplitOfPrefix(a[1..], t, sep);
      assert [a[0]] + (a[1..] + Split(t, sep)[0]) == a + Split(t, sep)[0];
    }
  }

  /** Splitting undoes joining, provided no part holds the separator. */
  lemma {:induction false} SplitJoin(parts: seq<string>, sep: char)
    requires |parts| >= 1
    requires forall i :: 0 <= i < |parts| ==> sep !in parts[i]
    ensures Split(Join(parts, sep), sep) == parts
    decreases |parts|
  {
    if |parts| == 1 {
      SplitOfPrefix(parts[0], "", sep);
      assert parts[0] + "" == parts[0];
    } else {
      SplitJoin(parts[1..], sep);
      var t := [sep] + Join(parts[1..], sep);
      assert Join(parts, sep) == parts[0] + t;
      SplitOfPrefix(parts[0], t, sep);
      assert t[1..] == Join(parts[1..], sep);
      assert Split(t, sep) == [""] + parts[1..];
      assert parts[0] + "" == parts[0];
      assert parts == [parts[0]] + parts[1..];
    }
  }

  // ---------------------------------------------------------------------------
  // decimal text: str(n) and int(s)
  // ---------------------------------------------------------------------------

  predicate IsDigit(c: char)
  {
    '0' <= c <= '9'
  }

  predicate AllDigits(s: string)
  {
    forall i :: 0 <= i < |s| ==> IsDigit(s[i])
  }

  function DigitChar(d: nat): (c: char)
    requires d < 10
    ensures IsDigit(c) && c as int - '0' as int == d
  {
    (d + '0' as int) as char
  }

  /** The number a string of decimal digits denotes (most significant first). */
  function DigitsValue(s: string): nat
    requires AllDigits(s)
  {
    if |s| == 0 then 0
    else 10 * DigitsValue(s[..|s| - 1]) + (s[|s| - 1] as int - '0' as int)
  }

  /** `str(n)` for a natural number: non-empty, digits only, no leading zero,
      and it denotes `n`. */
  function NatToString(n: nat): (s: string)
    ensures |s| >= 1 && AllDigits(s)
    ensures |s| == 1 || s[0] != '0'
    ensures DigitsValue(s) == n
  {
    if n < 10 then [DigitChar(n)]
    else
      var s := NatToString(n / 10) + [DigitChar(n % 10)];
      assert s[..|s| - 1] == NatToString(n / 10);
      s
  }

  /** The characters C's `isspace` accepts: what `int()` tolerates around a literal. */
  predicate IsSpace(c: char)
  {
    c == ' ' || c == '\t' || c == '\n' || c == '\r' || c == 11 as char || c == 12 as char
  }

  /** `s` with its leading whitespace removed. */
  function TrimLeft(s: string): (r: string)
    ensures |r| <= |s| && r == s[|s| - |r|..]
    ensures forall i :: 0 <= i < |s| - |r| ==> IsSpace(s[i])
    ensures |r| > 0 ==> !IsSpace(r[0])
  {
    if |s| > 0 && IsSpace(s[0]) then TrimLeft(s[1..]) else s
  }

  /** `s` with its trailing whitespace removed. */
  function TrimRight(s: string): (r: string)
    ensures |r| <= |s| && r == s[..|r|]
    ensures forall i :: |r| <= i < |s| ==> IsSpace(s[i])
    ensures |r| > 0 ==> !IsSpace(r[|r| - 1])
  {
    if |s| > 0 && IsSpace(s[|s| - 1]) then TrimRight(s[..|s| - 1]) else s
  }

  /** `s.strip()`: leading and trailing whitespace removed. */
  function Strip(s: string): (r: string)
    ensures (forall i :: 0 <= i < |s| ==> IsSpace(s[i])) ==> r == ""
    ensures |s| > 0 && !IsSpace(s[0]) && !IsSpace(s[|s| - 1]) ==> r == s
    ensures forall i :: 0 <= i < |r| ==> r[i] in s
  {
    var l := TrimLeft(s);
    var r := TrimRight(l);
    assert forall i :: 0 <= i < |r| ==> r[i] == s[|s| - |l| + i];
    r
  }

  /** The digits after the sign: at least one, nothing else. */
  function ParseDigits(body: string, s: string): (r: Result<nat>)
    ensures r.Ok? <==> |body| > 0 && AllDigits(body)
    ensures r.Ok? ==> r.value == DigitsValue(body)
    ensures r.Err? ==> r == Err(InvalidLiteral(s))
  {
    if |body| == 0 || !AllDigits(body) then Err(InvalidLiteral(s)) else Ok(DigitsValue(body))
  }

  /** `int(s)` in base 10: optional surrounding whitespace, an optional sign,
      then at least one digit; anything else raises ValueError. */
  function ParseInt(s: string): (r: Result<int>)
    ensures r.Ok? && '-' !in s ==> r.value >= 0
    ensures |s| > 0 && AllDigits(s) ==> r == Ok(DigitsValue(s))
    ensures (forall i :: 0 <= i < |s| ==> IsSpace(s[i])) ==> r == Err(InvalidLiteral(s))
  {
    var t := Strip(s);
    if |t| > 0 && t[0] == '-' then
      assert '-' in s;
      match ParseDigits(t[1..], s)
      case Ok(v) => Ok(0 - v)
      case Err(e) => Err(e)
    else if |t| > 0 && t[0] == '+' then
      match ParseDigits(t[1..], s)
      case Ok(v) => Ok(v)
      case Err(e) => Err(e)
    else
      match ParseDigits(t, s)
      case Ok(v) => Ok(v)
      case Err(e) => Err(e)
  }

  /** `int(str(n)) == n`. */
  lemma ParseNatToString(n: nat)
    ensures ParseInt(NatToString(n)) == Ok(n)
  {
  }

  // ---------------------------------------------------------------------------
  // hexadecimal text: format(n, '02x')
  // ---------------------------------------------------------------------------

  predicate IsHexDigit(c: char)
  {
    '0' <= c <= '9' || 'a' <= c <= 'f'
  }

  predicate AllHex(s: string)
  {
    forall i :: 0 <= i < |s| ==> IsHexDigit(s[i])
  }

  function HexDigitValue(c: char): (d: nat)
    requires IsHexDigit(c)
    ensures d < 16
  {
    if c <= '9' then c as int - '0' as int else c as int - 'a' as int + 10
  }

  /** The lower-case hex digit for `d`. */
  function HexDigit(d: nat): (c: char)
    requires d < 16
    ensures IsHexDigit(c) && HexDigitValue(c) == d
    ensures c == '0' <==> d == 0
  {
    if d < 10 then (d + '0' as int) as char else (d - 10 + 'a' as int) as char
  }

  /** The number a string of hex digits denotes (most significant first). */
  function HexValue(s: string): nat
    requires AllHex(s)
  {
    if |s| == 0 then 0
    else 16 * HexValue(s[..|s| - 1]) + HexDigitValue(s[|s| - 1])
  }

  /** `format(n, 'x')`: lower-case hex digits of `n` without a leading zero. */
  function ToHex(n: nat): (s: string)
    ensures |s| >= 1 && AllHex(s)
    ensures |s| == 1 || s[0] != '0'
    ensures HexValue(s) == n
  {
    if n < 16 then [HexDigit(n)]
    else
      var s := ToHex(n / 16) + [HexDigit(n % 16)];
      assert s[..|s| - 1] == ToHex(n / 16);
      s
  }

  /** What `format(n, '02x')` can produce: at least two lower-case hex digits,
      with a leading zero only as padding up to width two. */
  predicate IsMaskText(s: string)
  {
    |s| >= 2 && AllHex(s) && (|s| == 2 || s[0] != '0')
  }

  /** `format(n, '02x')`: the hex digits of `n`, zero-padded to width two. */
  function Format02x(n: nat): (s: string)
    ensures IsMaskText(s)
    ensures HexValue(s) == n
  {
    var h := ToHex(n);
    if |h| < 2 then
      var s := ['0'] + h;
      assert s[..1] == ['0'];
      s
    else h
  }
}
